=== FILE: README.md ===
# Procedural MIDI generation and humanization, modelled in Dafny

This project models the note-generation and humanization engine of a
procedural MIDI sample generator (`midi_generator.py`), and proves its
properties. The engine has four parts:

- **Scale and chord theory** (`theory.dfy`): the key table, the major and
  natural-minor scales, the scale extended over three octaves, chord types as
  stacks of scale degrees, `build_chord`, and an instrument's root pitch.
- **The division table and bar budget** (`schedule.dfy`): the note divisions
  and their lengths, which of them fit what is left of a bar, how a bar's four
  beats are spent, and the rejection loop that redraws a division.
- **The note/chord/rest decision and the bar-filling scheduler**
  (`generator.dfy`): `generate_note`, triplet slots, the loop over one bar and
  the loop over the bars. Then (`piece.dfy`) the loop over the instruments and
  `generate_perfect_midi` as a whole, producing a timeline in seconds.
- **The humanizer** (`humanizer.dfy`): `humanize_midi`, with its timing jitter,
  its start, length and velocity clamps, and velocity noise.

`pipeline.dfy` composes generation and humanization the way a sample is
rendered. `results.dfy`, `draws.dfy` and `notes.dfy` hold the shared types:
results and errors, random draws, and note events.

Modelling choices:

- **Time.** While a piece is generated, time is counted in integer ticks of a
  twelfth of a beat. The table lengths are whole 48, half 24, quarter 12,
  eighth 6 and sixteenth 3. A quarter triplet spans 24 ticks as 3 × 8, and an
  eighth triplet spans 12 ticks as 3 × 4. Ticks become real seconds
  (`ticks / 12 * 60 / bpm`) when a track is put into the timeline.
- **Randomness.** Every `random` call reads one raw draw from an explicit
  stream `nat -> nat`, at a position threaded through the whole generation, so
  a generation is a pure function of its stream. `randrange`, `randint` and
  `choice` reduce the draw to their range. `random.uniform` in the humanizer
  reads a stream of reals in the unit interval.
- **Errors.** The exceptions `midi_generator.py` raises are modelled as
  `Result` values, each at the point where the code raises it:
  - a zero tempo;
  - a key outside the table;
  - an instrument register whose minimum exceeds its maximum;
  - an empty division vocabulary, when a bar is filled;
  - an empty chord-type vocabulary, when a slot does not rest;
  - a negative velocity noise, when there is a note to humanize.
- **Decisions.** Besides the notes, generation returns what each call of
  `generate_note` decided: `Rest`, or `Play` with the chord type and the
  scale degree drawn. The notes are proved to be exactly what those decisions
  sound, in order.
- **Duration draw.** The model draws the slot's division uniformly among the
  vocabulary entries that fit what is left of the bar, keeping their
  repetitions. The rejection loop of `midi_generator.py` is modelled
  separately as `Schedule.Redraw`. Lemmas show that it accepts exactly the
  divisions the filtered draw can return.

Some behaviours of the code are easy to miss; the model follows the code:

- An empty division or chord vocabulary is not rejected up front. It fails
  only when a division or a chord type is actually drawn, as `random.choice`
  does on an empty list. With rest probability above 0.99 and no chord types,
  generation succeeds and emits no notes.
- The rest test is `randrange(0, 100) / 100 < rest_prob`, not a uniform real.
  It always rests exactly when the probability exceeds 0.99, and never rests
  exactly when the probability is at most 0.
- There is no "unsatisfiable bar budget" failure. The model proves that some
  division of any non-empty vocabulary always fits, so the case cannot arise.
- The humanizer does not reject a negative jitter setting: `uniform` accepts
  reversed bounds. It fails on a negative velocity noise only when a note
  draws it. Only a zero tempo is an error; a negative tempo is not checked.
- `"single"` takes the base scale's degree, not the extended scale's; the two
  are equal for the first seven entries.

## Model

| member | source | states |
|---|---|---|
| Draws.RandRange | midi_generator.py:38 | `randrange(0, n)` yields a value below n |
| Draws.RandInt | midi_generator.py:45 | `randint(lo, hi)` yields a value within both bounds, inclusive |
| Draws.Choice | midi_generator.py:42 | `choice` yields an element of the list |
| Draws.RandIntCovers | midi_generator.py:132 | every value in a `randint` range is produced by some stream, so no outcome is excluded |
| Draws.ChoiceCovers | midi_generator.py:142 | every element of a list is chosen by some stream |
| Notes.SecondsAdditive | midi_generator.py:118 | converting ticks to seconds is additive, so the source's cursor (advanced by durations in seconds) equals the tick cursor converted at the end |
| Notes.SecondsMonotone | midi_generator.py:118 | at a positive tempo, later ticks are later seconds (strictly for strictly later ticks), and non-negative ticks are non-negative seconds |
| Notes.ToNotesSequential | midi_generator.py:164-166 | slots that follow each other in ticks still follow each other in seconds |
| Theory.KeyOffset | midi_generator.py:93-98 | a key is found exactly when it is one of the twelve sharp-spelled names, and its offset names it back |
| Theory.KeyNamesRoundTrip | midi_generator.py:93-98 | every offset 0..11 is found under its own name |
| Theory.BaseScale | midi_generator.py:100-102 | the chosen scale is diatonic (seven increasing offsets from 0, below 12), with a major or minor third |
| Theory.BaseScaleDiatonic | midi_generator.py:100-101 | both scale tables are diatonic |
| Theory.MinorFlattensThirdSixthSeventh | midi_generator.py:100-101 | natural minor is major with exactly the third, sixth and seventh degrees a semitone lower |
| Theory.ExtendedScale | midi_generator.py:105 | the extended scale is three times as long and starts with the base scale |
| Theory.ExtendedScaleAt | midi_generator.py:105 | entry i is degree i mod 7 lifted by i / 7 octaves |
| Theory.ExtendedScaleShape | midi_generator.py:105 | over a diatonic scale the extended scale has 21 strictly increasing entries |
| Theory.ChordTypeOf | midi_generator.py:48-72 | each of the four recognised names maps to its own chord type, and no other name does |
| Theory.ChordTypesOf | midi_generator.py:82 | the chord-type list is classified element by element |
| Theory.ChordIntervals | midi_generator.py:59-72 | exactly triad, seventh and ninth are stacked, and their k-th interval is 2k scale degrees |
| Theory.ChordIntervalsFit | midi_generator.py:45 | a stack has one interval per chord tone (3, 4, 5), and from any degree 0..6 every index is at most 14, within the 21 entries |
| Theory.BuildChord | midi_generator.py:5-24 | one note per interval, in interval order, at the root plus the extended-scale entry that many degrees up, with the chord's timing and velocity 100 |
| Theory.RootPitch | midi_generator.py:131-133 | the root has the key's pitch class, and its octave above middle C is recovered from it |
| Theory.BuildChordAscending | midi_generator.py:59-72 | increasing intervals over a diatonic scale sound strictly increasing pitches |
| Theory.BuildChordInKey | midi_generator.py:15-16 | every note of a chord on a root of the key is in the key |
| Theory.PitchInKey | midi_generator.py:16 | a root of the key plus any extended-scale entry is in the key |
| Theory.SeventhOnCMajorExample | midi_generator.py:64-67 | a seventh on degree 0 of C major from root 60 sounds 60, 64, 67, 71 |
| Schedule.ParseDivision | midi_generator.py:108-116 | a found division carries the name looked up, and a name that is not found names no division |
| Schedule.ParseName | midi_generator.py:108-116 | every division is found under its own name |
| Schedule.TripletByName | midi_generator.py:153 | the triplet divisions are exactly the two names the scheduler tests |
| Schedule.Length | midi_generator.py:108-116 | every division moves time on by a positive number of ticks |
| Schedule.LengthExact | midi_generator.py:108-116 | the tick length is exactly the table's beats times 12, divides the bar, and splits evenly in three |
| Schedule.SubLength | midi_generator.py:153-155 | a triplet plays three notes of a third of its span each; any other division plays one note of its whole span |
| Schedule.LengthsNest | midi_generator.py:108-116 | a shorter table length always divides a longer one |
| Schedule.Fitting | midi_generator.py:142-148 | a division is offered exactly when it is in the vocabulary and fits what is left of the bar |
| Schedule.FittingCounts | midi_generator.py:142-148 | the offered divisions keep their vocabulary repetitions, so the draw is weighted as the rejection loop's |
| Schedule.Shortest | midi_generator.py:142 | a shortest vocabulary entry: in the vocabulary, and no longer than any entry |
| Schedule.WholeUnitsMod | midi_generator.py:140-148 | counting a budget off one division length at a time ends exactly at zero when the length divides the budget |
| Schedule.SmallestAlwaysFits | midi_generator.py:140-148 | while budget is left and the shortest length measures it, the shortest division fits, so the redraw loop always ends |
| Schedule.BudgetStaysMeasured | midi_generator.py:161-166 | spending a fitting division keeps the remaining budget a multiple of the shortest length |
| Schedule.FullBarMeasured | midi_generator.py:138 | a fresh four-beat budget is a multiple of the shortest length of any vocabulary |
| Schedule.BudgetModulus | midi_generator.py:166 | a multiple of a table length minus a smaller multiple of it is a multiple of it |
| Schedule.ConsumesCons | midi_generator.py:161-166 | a fitting division followed by a sequence that spends the rest spends the whole budget |
| Schedule.ConsumesIffSum | midi_generator.py:140-166 | spending a budget division by division, each fitting, holds exactly when the lengths add up to the budget |
| Schedule.SumTicksIsSumBeats | midi_generator.py:108-116 | tick lengths and the table's beats count the same span |
| Schedule.BarIsFourBeats | midi_generator.py:138-166 | the divisions accepted in a bar add up to exactly four beats |
| Schedule.SlotSpansTile | midi_generator.py:150-162 | the spans a slot decides (three thirds for a triplet, one whole span otherwise) cover its division back to back from its start |
| Schedule.SpansTile | midi_generator.py:140-166 | the decision spans of a bar's divisions cover their lengths back to back, with no gap and no overlap |
| Schedule.TilesConcat | midi_generator.py:164-166 | two stretches of spans covered back to back make one covered stretch |
| Schedule.SpansAppend | midi_generator.py:137-166 | the decision spans of two runs of divisions are those of the first run followed by those of the second, started where the first ends |
| Schedule.SpansOfBars | midi_generator.py:137-166 | the slot spans of a bar followed by later bars are the bar's spans followed by the later bars' spans, started where the bar ends |
| Schedule.Redraw | midi_generator.py:142-148 | the rejection loop accepts the first fitting draw after only non-fitting ones, and keeps drawing exactly when no draw fits |
| Schedule.RedrawAcceptsOnlyFitting | midi_generator.py:146-148 | whatever the rejection loop accepts is a division the filtered draw offers |
| Schedule.RedrawReachesEveryFit | midi_generator.py:142-148 | every division the filtered draw offers is accepted by the rejection loop for some draws |
| Generator.RestsAlways | midi_generator.py:38-39 | every roll rests exactly when the rest probability exceeds 0.99 |
| Generator.RestsNever | midi_generator.py:38-39 | no roll rests exactly when the rest probability is at most 0 |
| Generator.SingleTone | midi_generator.py:48-57 | "single" sounds one note of the key, at the root plus the base-scale degree |
| Generator.StackedChord | midi_generator.py:59-72 | a stacked chord sounds one note per chord tone, in the key, strictly ascending, with the chosen degree lowest; the k-th note is the root plus the extended-scale entry 2k degrees above the chosen degree |
| Generator.PlaySlot | midi_generator.py:48-72 | a chord type sounds as many notes as it has tones (none for an unrecognised name), all in the key with the slot's timing, ascending, the lowest at the chosen degree |
| Generator.PlaySlotPitches | midi_generator.py:59-72 | a triad, seventh or ninth sounds the chord stacked on the chosen degree: the k-th note is the root plus the extended-scale entry 2k degrees above it |
| Generator.GenerateNote | midi_generator.py:27-74 | a slot fails exactly when it does not rest and there are no chord types; otherwise the cursor moves on by the duration, a rest emits nothing, and a played slot emits the drawn type's tone count in the key, lowest at the drawn degree |
| Generator.GenerateNotePitches | midi_generator.py:41-72 | when the drawn chord type is a triad, seventh or ninth, a played slot sounds exactly that chord stacked on the drawn degree |
| Generator.GenerateNoteAscending | midi_generator.py:59-72 | the notes of a played slot ascend in pitch |
| Generator.NoteDecision | midi_generator.py:27-74 | one call of `generate_note` is one decision over its span, and its notes are exactly what that decision sounds: nothing for a rest, or the notes of a listed chord type built on a degree of the base scale |
| Generator.NoteSounds | midi_generator.py:27-74 | a call records exactly one decision, one the code can take (a rest only at a positive rest probability; a play only at a probability of at most 0.99, of a listed chord type on a degree of the base scale), and appends the notes that decision sounds |
| Generator.RollAllowed | midi_generator.py:38-39 | a roll of 0..99 that rests needs a positive rest probability, and one that does not rest needs a probability of at most 0.99 |
| Generator.RenderConcat | midi_generator.py:164-166 | the notes of two runs of decisions, taken one after the other, are the notes of the first run followed by those of the second |
| Generator.RenderUnfold | midi_generator.py:164-166 | the notes of a non-empty run of decisions are the first decision's notes followed by the rest's |
| Generator.PlayedOne | midi_generator.py:27-74 | one decision that the code can take, and the notes it sounds, form a played run of one span |
| Generator.PlayedInConcat | midi_generator.py:164-166 | two played runs, one after the other, are played as the first run's decisions followed by the second's, over the first run's spans followed by the second's |
| Generator.ThreePlayed | midi_generator.py:158-160 | three decisions over consecutive spans are a played run of those three spans, with the three decisions in order |
| Generator.TripletPlayed | midi_generator.py:153-162 | three decisions, one in each third of a triplet, are played over that triplet's spans |
| Generator.PlainPlayed | midi_generator.py:164-166 | one decision over the whole length of a plain division is played over its span |
| Generator.LaidConcat | midi_generator.py:164-166 | two stretches laid out back to back make one laid-out stretch |
| Generator.Slot | midi_generator.py:150-166 | a slot moves the cursor on by the division's full length, succeeds whenever a chord type can be drawn or the slot always rests, and emits nothing when it always rests |
| Generator.NoteLaid | midi_generator.py:27-74 | one call's notes lie inside its span, with positive length, velocity 100 and pitches in the key |
| Generator.TripletLaid | midi_generator.py:153-162 | the three calls of a triplet lie back to back in the three thirds of its span |
| Generator.SlotLaid | midi_generator.py:150-166 | a slot's notes are laid out inside the span it fills |
| Generator.SlotPlayed | midi_generator.py:150-166 | a slot's notes are what its recorded decisions sound, in order: three decisions, one in each third, for a triplet; one decision over the whole length otherwise. Each decision is a rest or a listed chord type on a degree of the base scale |
| Generator.SoundingStarts | midi_generator.py:27-74 | when no slot rests and every chord type is recognised, some note of a played run starts at the start of every span |
| Generator.SoundingOne | midi_generator.py:38-72 | when no slot rests and every chord type is recognised, an allowed decision sounds at least one note, and its first note starts where the span starts |
| Generator.SlotSounds | midi_generator.py:153-162 | when no slot rests and every chord type is recognised, a slot sounds at its start and a triplet also sounds at its second and third thirds |
| Generator.NoteTiming | midi_generator.py:51-56 | every note of one call starts at the cursor and ends a duration later |
| Generator.SlotTiming | midi_generator.py:153-162 | each note of a slot lasts the slot's note length and starts at the slot's start or, for a triplet, at one of its thirds |
| Generator.SlotThenLaid | midi_generator.py:150-166 | a slot's notes followed by a stretch laid out over the rest of the budget are laid out over the whole budget |
| Generator.PlayedThen | midi_generator.py:161-166 | the decisions of one slot followed by those of the rest of the bar, from where the slot ended, are a played run over the whole run of divisions |
| Generator.SlotThenPlayed | midi_generator.py:150-166 | a slot's notes followed by the rest of the bar played from the slot's end are played over the slot's division and the rest |
| Generator.FillBar | midi_generator.py:140-166 | the accepted divisions are vocabulary entries that spend the budget exactly, and the cursor ends the budget later. It fails with no vocabulary, succeeds whenever a division and a slot decision are always possible, and emits nothing when every slot rests. Its notes are laid out inside the span the bar fills. The bar records one decision per span of its divisions (one span per third of a triplet), and its notes are exactly what those decisions sound, in order. Each decision is a rest or a listed chord type on a degree of the base scale |
| Generator.SlotThenBar | midi_generator.py:140-166 | a slot of a vocabulary division that fits, followed by the rest of the bar filled from where the slot ended, spends the whole budget with vocabulary divisions, is laid out over it, and is played over the slots of all its divisions |
| Generator.QuartersOnTheBeats | midi_generator.py:38-57 | when every decision sounds and every chord type is "single", the notes played over a run of quarter notes from a cursor are one note on each beat, back to back |
| Generator.QuarterBar | midi_generator.py:137-166 | with only single quarter notes and no rests, a bar filled from a budget of whole beats is one note on each beat, back to back |
| Generator.FillBars | midi_generator.py:137-166 | one list of divisions per bar, every division from the vocabulary, and the cursor ends four beats a bar later. It fails with no vocabulary, succeeds whenever a division and a slot decision are always possible, and emits nothing when every slot rests. The notes of all bars are laid out from the start cursor to four beats a bar later. They are exactly what the recorded decisions sound over the slots of every bar, bar after bar; each decision is a rest or a listed chord type on a degree of the base scale |
| Generator.FillBarsOnFails | midi_generator.py:137-166 | a run of one bar or more fails with no vocabulary, fails only for lack of divisions or chord types, and succeeds whenever a division can be drawn and a slot can either draw a chord type or always rests |
| Generator.FillBarsOnFills | midi_generator.py:137-166 | a successful run of one bar or more has one division list per bar, all from the vocabulary, ends four beats a bar later, lays its notes inside the run, sounds exactly its decisions over the bars' slots, and is silent when every slot rests |
| Generator.BarsLaid | midi_generator.py:137-166 | a bar laid out over its four beats followed by the later bars laid out from its end is laid out over the whole run |
| Generator.BarsPlayed | midi_generator.py:137-166 | a bar played over its divisions' slots followed by the later bars played from its end is played over the slots of all the bars, and all the divisions are from the vocabulary |
| Generator.RunTicksIsProduct | midi_generator.py:137-166 | a run of n bars lasts n times four beats, and no time for n at most zero |
| Generator.QuarterFill | midi_generator.py:135-166 | a bar of single quarter notes from time zero is four notes, one on each beat |
| Generator.FillBarsConsume | midi_generator.py:137-166 | every bar spends its four beats exactly |
| Piece.InstrumentContext | midi_generator.py:100-133 | an instrument's context has the chosen scale, the key's offset and a root of the key |
| Piece.RunInstrument | midi_generator.py:120-166 | a register with min above max fails, and an open register succeeds when the bars can be filled. The octave is within the register, which is 0..1 for an instrument without an entry, the root is built from it, there is one list of divisions per bar, and the cursor ends after the last bar |
| Piece.RunInstrumentShape | midi_generator.py:135-166 | every bar of an instrument spends four beats with divisions from its vocabulary. Its notes are laid out from zero to the end of the last bar, in the key, and are exactly what the recorded decisions sound over the bars' slots, one after another; each decision is a rest or one of the instrument's chord types on a degree of the base scale |
| Piece.GenerateTracks | midi_generator.py:120-168 | one track per instrument, in order. A closed register fails the loop, and open registers with fillable bars make it succeed. With a rest probability above 0.99 every track is empty |
| Piece.Generate | midi_generator.py:77-168 | a zero tempo fails first, then an unknown key. A timeline has the tempo and one track per instrument, in order. It fails if any register is closed and succeeds if all are open and the bars can be filled. With a rest probability above 0.99 every track is empty |
| Piece.LaidInSeconds | midi_generator.py:118-166 | notes laid out in ticks from zero lie between zero and the end of the piece in seconds, in the key, one slot after another |
| Piece.BarsInSeconds | midi_generator.py:118 | the end of bar B is 4 * B * 60 / bpm seconds |
| Piece.GenerateTracksInKey | midi_generator.py:120-168 | every generated track lies within the piece's bars, in the key, one slot after another |
| Piece.GenerateTracksPlayed | midi_generator.py:120-168 | every generated track is, in seconds, what some decisions sound over the slots of some bars, one bar per bar of the piece. Every bar spends four beats with divisions from the instrument's vocabulary, the root is of the key, and each decision is a rest or one of the instrument's chord types on a degree of the base scale |
| Piece.GenerateInKey | midi_generator.py:77-168 | at a positive tempo every note of every track is in the key, starts at or after zero, ends after it starts and by the end of the last bar, has velocity 100, and the slots follow each other. Every track is what its decisions sound over the slots of its bars, bar after bar, with divisions from the vocabulary and each decision a rest or a listed chord type on a degree of the base scale |
| Piece.BeatAt120 | midi_generator.py:118 | at 120 bpm a beat lasts half a second |
| Piece.QuartersAt120 | midi_generator.py:150 | four notes a beat long, one on each beat, start at 0, 0.5, 1.0 and 1.5 s at 120 bpm, each 0.5 s long |
| Piece.QuarterNotesExample | midi_generator.py:77-168 | one bar of single quarter notes in C major at 120 bpm with rest probability 0 is, whatever the draws, four notes at 0, 0.5, 1.0 and 1.5 s, each 0.5 s long |
| Humanizer.MaxReal | midi_generator.py:190-191 | `max` is at least both arguments and is one of them |
| Humanizer.ScaleBounds | midi_generator.py:188 | a unit share of an amount lies between zero and the amount, for either sign |
| Humanizer.Uniform | midi_generator.py:188 | `uniform(lo, hi)` lies between the two bounds, in whichever order they are given |
| Humanizer.UniformCovers | midi_generator.py:188 | every value between the bounds is drawn by some unit draw |
| Humanizer.Jitter | midi_generator.py:188 | the jitter is at most the setting in milliseconds, in seconds, either way |
| Humanizer.JitterExtremes | midi_generator.py:188 | the extreme unit draws give the full jitter setting, one each way |
| Humanizer.ClampVelocity | midi_generator.py:195 | the velocity ends in [20, 127], unchanged when in range, and otherwise at the bound it passed |
| Humanizer.Perturb | midi_generator.py:186-204 | the pitch stays. The note starts at or after zero and lasts at least 0.05 s, with velocity in [20, 127]. Start and end are never earlier than jittered. When neither clamp fires both move by exactly the jitter and the velocity by exactly the offset |
| Humanizer.PerturbStaysClose | midi_generator.py:188-195 | the clamps never move a note further than the noise: the start by at most the jitter, a velocity in range by at most the offset |
| Humanizer.PerturbQuiet | midi_generator.py:190-195 | without noise an in-bounds note is unchanged, so humanizing is idempotent at zero noise |
| Humanizer.HumanizeNotes | midi_generator.py:186-204 | one output note per input note, in order, each the input perturbed by its own jitter and velocity draws |
| Humanizer.PerturbHumanizes | midi_generator.py:188-195 | a note perturbed by draws within the settings keeps the humanizer's promise |
| Humanizer.HumanizeNotesBounded | midi_generator.py:186-204 | every note of a humanized track keeps the promise against its input note: same pitch, in bounds, moved within the settings, length kept when no clamp fires |
| Humanizer.HumanizeTrack | midi_generator.py:183-206 | a humanized track has the same instrument and note count, and each note keeps the promise against the input note in the same position |
| Humanizer.HumanizeTracks | midi_generator.py:183-206 | one humanized track per track, in order, each keeping the promise against its input track |
| Humanizer.Humanize | midi_generator.py:174-208 | a zero tempo fails, and a negative velocity noise fails exactly when some note draws it. Otherwise the result has the given tempo and as many tracks |
| Humanizer.HumanizeBounded | midi_generator.py:174-208 | a humanized timeline has the given tempo and the same instruments in order, and every track keeps every note, in order, with its pitch, within bounds and within the settings |
| Pipeline.Sample | audio_generator.py:24-32 | a zero tempo fails. A rendered sample exists exactly when the generation succeeds, with the tempo and one track per instrument |
| Pipeline.SampleInKey | audio_generator.py:24-32 | every note of a rendered sample is in the key, starts between zero and 30 ms past the end of the piece, and has velocity within 20 of 100 |

## Left out

- `pretty_midi` objects, the mapping of instrument names to program numbers,
  and `pm.write` are library calls and file output. A track keeps its
  instrument name in place of the program number. The `ValueError` that the
  mapping raises for an unknown instrument name is not modelled.
- `pm.write` (midi_generator.py:170) fails on a note number outside 0..127,
  for instance when a register as high as octave 6 puts the root at 132 or
  above. The model has no such error: its pitches are unbounded integers, and
  `Piece.Generate` succeeds in that case.
- The distributions of `random` are not modelled. Each primitive reduces one
  raw draw to its range, and lemmas show every value in range is reachable.
- Seconds are exact reals. Floating-point rounding of the accumulated cursor is
  not modelled, and `Notes.SecondsAdditive` shows why converting at the end
  gives the same cursor.
- The division draw is the filtered draw. The rejection loop of
  `midi_generator.py` (`Schedule.Redraw`) reaches the same divisions, but it
  reads more raw draws, so the stream positions of later draws differ from
  those of `midi_generator.py`.
- Division names outside the table (a `KeyError` at the table lookup) cannot
  be passed: the vocabulary is typed by `Schedule.Division`.
  `Schedule.ParseDivision` models the lookup on its own.
- A register entry lacking its "min" or "max" key cannot be expressed: a
  register always has both bounds.
- Chord-type names are classified once per instrument (`Theory.ChordTypesOf`)
  rather than compared at each slot. The outcome is the same.
- Humanizer: `random.uniform` and `random.randint` read two separate streams,
  each at the note's position. In `midi_generator.py` they interleave on one
  global generator, so the order of reads is not modelled.
- Humanizer.HumanizeBounded: the promise that a note moves by at most the
  jitter covers notes that started at or after zero. The length promise covers
  notes late and long enough for neither clamp to fire. The velocity promise
  covers velocities that were in range. Outside these cases the clamps move a
  note further, as `midi_generator.py` does.
- Piece.GenerateInKey: states the end of the piece as the tick count of the
  bars converted to seconds. `Piece.BarsInSeconds` gives the closed form
  4 * B * 60 / bpm.
- `audio_generator.py`'s synthesis and WAV output, and all of `main.py`
  (argument parsing, dataset tables, folders and the split), are audio
  rendering, orchestration and I/O. Only the order "generate, then humanize
  at the same tempo with the defaults" is modelled, in `Pipeline.Sample`.

=== FILE: draws.dfy ===
/** The random source, made explicit.

    midi_generator.py draws from one global pseudo-random generator. Here that
    generator is an infinite stream of raw draws, read at a position that the
    caller threads through every call, so that a whole generation is a pure
    function of the stream. Each random primitive reads one raw draw and
    reduces it to its range; which raw values are likely is not modelled. */
module Draws {

  /** An infinite stream of raw draws, indexed by position. */
  type Rng = nat -> nat

  /** random.randrange(0, n): an integer in [0, n). */
  function RandRange(rng: Rng, pos: nat, n: nat): (r: nat)
    requires n > 0
    ensures r < n
  {
    rng(pos) % n
  }

  /** random.randint(lo, hi): an integer in [lo, hi], both ends included. */
  function RandInt(rng: Rng, pos: nat, lo: int, hi: int): (r: int)
    requires lo <= hi
    ensures lo <= r <= hi
  {
    lo + rng(pos) % (hi - lo + 1)
  }

  /** random.choice(xs): one element of a non-empty sequence. */
  function Choice<T>(xs: seq<T>, rng: Rng, pos: nat): (r: T)
    requires |xs| > 0
    ensures r in xs
  {
    xs[rng(pos) % |xs|]
  }

  /** No outcome of randint is excluded by the model: every value in range is
      produced by some stream. */
  lemma RandIntCovers(lo: int, hi: int, v: int)
    requires lo <= v <= hi
    ensures RandInt((_ => (v - lo) as nat), 0, lo, hi) == v
  {
    var n := hi - lo + 1;
    assert (v - lo) % n == v - lo;
  }

  /** No element of a choice is excluded by the model either. */
  lemma ChoiceCovers<T>(xs: seq<T>, i: nat)
    requires i < |xs|
    ensures Choice(xs, _ => i, 0) == xs[i]
  {
    assert i % |xs| == i;
  }
}

=== FILE: generator.dfy ===
/** Note generation: the rest, note or chord decision for one time slot, the
    bar-filling scheduler, and the generation of a whole timeline. */
module Generator {
  import opened Results
  import opened Draws
  import opened Notes
  import opened Theory
  import opened Schedule

  /** What stays fixed while one instrument's track is generated. */
  datatype Context = Context(
    restProb: real,
    base: seq<int>,
    chordTypes: seq<ChordType>,
    vocab: seq<Division>,
    keyOffset: nat,
    root: int)

  /** The scale is major or minor and the root has the key's pitch class. */
  predicate ValidContext(ctx: Context) {
    && IsBaseScale(ctx.base)
    && ctx.keyOffset < 12
    && ctx.root % 12 == ctx.keyOffset
  }

  /** The time cursor in ticks, and the position of the next unread draw. */
  datatype Cursor = Cursor(time: nat, pos: nat)

  /** What one call of generate_note decides: rest, or play a chord type on
      a degree of the base scale. */
  datatype Decision = Rest | Play(chordType: ChordType, degree: nat)

  /** The decisions one step of generation takes, the notes it appends to
      the track, and the cursor it leaves behind. */
  datatype Played = Played(decisions: seq<Decision>, events: seq<Event>, next: Cursor)

  /** The rest test: a roll k of randrange(0, 100) rests when k / 100 is below
      the rest probability. */
  predicate Rests(roll: nat, restProb: real) {
    (roll as real) / 100.0 < restProb
  }

  /** Every roll rests exactly when the rest probability exceeds 0.99, the
      largest value k / 100 can take; in particular at probability 1. */
  lemma RestsAlways(restProb: real)
    ensures (forall roll: nat :: roll < 100 ==> Rests(roll, restProb)) <==> restProb > 0.99
  {
    if forall roll: nat :: roll < 100 ==> Rests(roll, restProb) {
      assert Rests(99, restProb);
    }
  }

  /** Every slot can be decided: a chord type can be drawn, or the slot is
      sure to rest before one is needed. */
  predicate Playable(ctx: Context) {
    |ctx.chordTypes| > 0 || ctx.restProb > 0.99
  }

  /** No roll rests exactly when the rest probability is at most 0. */
  lemma RestsNever(restProb: real)
    ensures (forall roll: nat :: roll < 100 ==> !Rests(roll, restProb)) <==> restProb <= 0.0
  {
    if forall roll: nat :: roll < 100 ==> !Rests(roll, restProb) {
      assert !Rests(0, restProb);
    }
  }

  /** The notes of one played slot: same timing, the fixed velocity, pitches
      of the key, at most five of them. */
  predicate SlotGroup(group: seq<Event>, start: nat, end: nat, ctx: Context) {
    && |group| <= 5
    && forall k :: 0 <= k < |group| ==>
         && group[k].start == start
         && group[k].end == end
         && group[k].velocity == GeneratedVelocity
         && InKey(group[k].pitch, ctx.keyOffset, ctx.base)
  }

  /** The pitches of a chord stacked on a scale degree: the k-th note sounds
      the extended-scale entry 2k degrees above it, lifted to the root. */
  predicate StackedPitches(es: seq<Event>, degree: nat, ctx: Context) {
    forall k :: 0 <= k < |es| ==>
      degree + 2 * k < |ExtendedScale(ctx.base)| && es[k].pitch == ctx.root + ExtendedScale(ctx.base)[degree + 2 * k]
  }

  /** "single": the chosen degree of the base scale above the root. */
  function SingleTone(degree: nat, ctx: Context, start: nat, end: nat): (r: seq<Event>)
    requires ValidContext(ctx) && degree < 7
    ensures |r| == 1 && r[0].pitch == ctx.root + ctx.base[degree]
    ensures SlotGroup(r, start, end, ctx)
  {
    BaseScaleDiatonic(ctx.base);
    var e := Event(ctx.root + ctx.base[degree], start, end, GeneratedVelocity);
    PitchInKey(ctx.root, ctx.keyOffset, ctx.base, degree);
    assert ExtendedScale(ctx.base)[..7][degree] == ctx.base[degree];
    SingletonGroup(e, ctx);
    [e]
  }

  lemma SingletonGroup(e: Event, ctx: Context)
    requires e.velocity == GeneratedVelocity && InKey(e.pitch, ctx.keyOffset, ctx.base)
    ensures SlotGroup([e], e.start, e.end, ctx)
  {
  }

  /** A stacked chord type: build_chord over its intervals. Its lowest note is
      the chosen degree itself. */
  function StackedChord(chordType: ChordType, degree: nat, ctx: Context, start: nat, end: nat): (r: seq<Event>)
    requires ValidContext(ctx) && degree < 7 && ChordIntervals(chordType).Some?
    ensures |r| == ToneCount(chordType) && r[0].pitch == ctx.root + ctx.base[degree]
    ensures SlotGroup(r, start, end, ctx) && StrictlyIncreasing(Pitches(r))
    ensures StackedPitches(r, degree, ctx)
  {
    BaseScaleDiatonic(ctx.base);
    var intervals := ChordIntervals(chordType).value;
    var ext := ExtendedScale(ctx.base);
    ChordIntervalsFit(chordType, degree);
    BuildChordAscending(intervals, degree, ctx.base, ctx.root, start, end);
    BuildChordInKey(intervals, degree, ctx.base, ctx.root, ctx.keyOffset, start, end);
    assert ext[..7][degree] == ctx.base[degree];
    BuildChord(intervals, degree, ext, ctx.root, start, end)
  }

  /** The play branch of the decision: the notes a chord type sounds on a
      scale degree. "single" sounds the degree itself; the stacked types sound
      one note per interval; any other name sounds nothing. */
  function PlaySlot(chordType: ChordType, degree: nat, ctx: Context, start: nat, end: nat): (r: seq<Event>)
    requires ValidContext(ctx) && degree < 7
    ensures |r| == ToneCount(chordType)
    ensures SlotGroup(r, start, end, ctx) && StrictlyIncreasing(Pitches(r))
    ensures |r| > 0 ==> r[0].pitch == ctx.root + ctx.base[degree]
  {
    match chordType
    case Single => SingleTone(degree, ctx, start, end)
    case Unrecognised => []
    case _ => StackedChord(chordType, degree, ctx, start, end)
  }

  /** A stacked chord type plays the chord stacked on the degree. */
  lemma PlaySlotPitches(chordType: ChordType, degree: nat, ctx: Context, start: nat, end: nat)
    requires ValidContext(ctx) && degree < 7 && ChordIntervals(chordType).Some?
    ensures StackedPitches(PlaySlot(chordType, degree, ctx, start, end), degree, ctx)
  {
  }

  /** generate_note: one time slot. It rests, or plays the notes of a drawn
      chord type on a drawn degree; either way the cursor moves on by the
      slot's duration. Draws are read in midi_generator.py's order: the rest roll,
      then the chord type, then the degree. */
  function GenerateNote(at: Cursor, duration: nat, ctx: Context, rng: Rng): (r: Result<Played>)
    requires ValidContext(ctx)
    ensures r.Ok? <==> Rests(rng(at.pos) % 100, ctx.restProb) || |ctx.chordTypes| > 0
    ensures r.Err? ==> r.error == EmptyChordTypes
    ensures r.Ok? ==> r.value.next.time == at.time + duration && r.value.next.pos > at.pos
    ensures r.Ok? ==> SlotGroup(r.value.events, at.time, at.time + duration, ctx)
    ensures r.Ok? && Rests(rng(at.pos) % 100, ctx.restProb) ==> r.value.events == []
    ensures r.Ok? && !Rests(rng(at.pos) % 100, ctx.restProb) ==>
      && |r.value.events| == ToneCount(Choice(ctx.chordTypes, rng, at.pos + 1))
      && (|r.value.events| > 0 ==>
            r.value.events[0].pitch == ctx.root + ctx.base[RandInt(rng, at.pos + 2, 0, 6)])
  {
    RollAllowed(RandRange(rng, at.pos, 100), ctx.restProb);
    if Rests(RandRange(rng, at.pos, 100), ctx.restProb) then
      Ok(Played([Rest], [], Cursor(at.time + duration, at.pos + 1)))
    else if |ctx.chordTypes| == 0 then
      Err(EmptyChordTypes)
    else
      var chordType := Choice(ctx.chordTypes, rng, at.pos + 1);
      var degree := RandInt(rng, at.pos + 2, 0, |ctx.base| - 1) as nat;
      var dec := Play(chordType, degree);
      Ok(Played([dec], Sound(dec, Span(at.time, at.time + duration), ctx), Cursor(at.time + duration, at.pos + 3)))
  }

  /** The notes of a played slot ascend in pitch. */
  lemma GenerateNoteAscending(at: Cursor, duration: nat, ctx: Context, rng: Rng)
    requires ValidContext(ctx) && GenerateNote(at, duration, ctx, rng).Ok?
    ensures StrictlyIncreasing(Pitches(GenerateNote(at, duration, ctx, rng).value.events))
  {
  }

  /** When the drawn chord type is a stacked one, the played notes are the
      chord stacked on the drawn degree. */
  lemma GenerateNotePitches(at: Cursor, duration: nat, ctx: Context, rng: Rng, p: Played)
    requires ValidContext(ctx) && GenerateNote(at, duration, ctx, rng) == Ok(p)
    requires !Rests(rng(at.pos) % 100, ctx.restProb)
    requires ChordIntervals(Choice(ctx.chordTypes, rng, at.pos + 1)).Some?
    ensures StackedPitches(p.events, RandInt(rng, at.pos + 2, 0, 6), ctx)
  {
    PlaySlotPitches(Choice(ctx.chordTypes, rng, at.pos + 1), RandInt(rng, at.pos + 2, 0, 6) as nat, ctx, at.time, at.time + duration);
  }

  /** A stretch of track laid out between `lo` and `hi`: every note lies in
      the span and lasts a positive time, has the generated velocity and a
      pitch of the key, and the slots follow each other. */
  predicate Laid(es: seq<Event>, lo: nat, hi: nat, ctx: Context) {
    && (forall i :: 0 <= i < |es| ==>
          && lo <= es[i].start < es[i].end <= hi
          && es[i].velocity == GeneratedVelocity
          && InKey(es[i].pitch, ctx.keyOffset, ctx.base))
    && SequentialEvents(es)
  }

  /** A slot's notes, played for a positive time, are laid out in the slot. */
  lemma GroupLaid(group: seq<Event>, start: nat, end: nat, ctx: Context)
    requires SlotGroup(group, start, end, ctx) && start < end
    ensures Laid(group, start, end, ctx)
  {
  }

  /** Two stretches laid out back to back make one stretch. */
  lemma LaidConcat(a: seq<Event>, b: seq<Event>, lo: nat, mid: nat, hi: nat, ctx: Context)
    requires lo <= mid <= hi
    requires Laid(a, lo, mid, ctx) && Laid(b, mid, hi, ctx)
    ensures Laid(a + b, lo, hi, ctx)
  {
    var ab := a + b;
    forall i | 0 <= i < |ab|
      ensures lo <= ab[i].start < ab[i].end <= hi
      ensures ab[i].velocity == GeneratedVelocity && InKey(ab[i].pitch, ctx.keyOffset, ctx.base)
    {
      if i < |a| {
        assert ab[i] == a[i];
      } else {
        assert ab[i] == b[i - |a|];
      }
    }
    forall i, j | 0 <= i < j < |ab|
      ensures (ab[i].start == ab[j].start && ab[i].end == ab[j].end) || ab[i].end <= ab[j].start
    {
      if j < |a| {
        assert ab[i] == a[i] && ab[j] == a[j];
      } else if i >= |a| {
        assert ab[i] == b[i - |a|] && ab[j] == b[j - |a|];
      } else {
        assert ab[i] == a[i] && ab[j] == b[j - |a|];
      }
    }
  }

  /** An empty stretch is laid out anywhere. */
  lemma LaidEmpty(lo: nat, hi: nat, ctx: Context)
    ensures Laid([], lo, hi, ctx)
  {
  }

  /** Every note decision sounds: no slot rests, and every chord type drawn
      has at least one tone. */
  predicate Sounding(ctx: Context) {
    && ctx.restProb <= 0.0
    && forall c :: c in ctx.chordTypes ==> c != Unrecognised
  }

  /** A decision generate_note can take. It rests only on a roll below the
      rest probability, so only when that is positive; it plays only on a
      roll that is not, so only when it is at most 0.99, and then a listed
      chord type on a degree of the base scale. */
  predicate Allowed(dec: Decision, ctx: Context) {
    match dec
    case Rest => ctx.restProb > 0.0
    case Play(chordType, degree) => ctx.restProb <= 0.99 && chordType in ctx.chordTypes && degree < |ctx.base|
  }

  predicate AllAllowed(decs: seq<Decision>, ctx: Context) {
    forall dec :: dec in decs ==> Allowed(dec, ctx)
  }

  /** The notes a decision sounds over a span: none for a rest, and the
      chord type's notes on the degree for a play. */
  function Sound(dec: Decision, span: Span, ctx: Context): seq<Event>
    requires ValidContext(ctx) && Allowed(dec, ctx)
  {
    match dec
    case Rest => []
    case Play(chordType, degree) => PlaySlot(chordType, degree, ctx, span.start, span.end)
  }

  /** The notes of decisions taken over consecutive spans, one decision per
      span, one after the other. */
  function Render(decs: seq<Decision>, spans: seq<Span>, ctx: Context): seq<Event>
    requires ValidContext(ctx) && AllAllowed(decs, ctx) && |decs| == |spans|
    decreases |decs|, 1
  {
    if |decs| == 0 then [] else RenderFirst(decs, spans, ctx)
  }

  /** The notes of a non-empty run: the first decision's, then the rest's. */
  function RenderFirst(decs: seq<Decision>, spans: seq<Span>, ctx: Context): seq<Event>
    requires ValidContext(ctx) && AllAllowed(decs, ctx) && |decs| == |spans| > 0
    decreases |decs|, 0
  {
    assert decs[0] in decs && forall dec :: dec in decs[1..] ==> dec in decs;
    Sound(decs[0], spans[0], ctx) + Render(decs[1..], spans[1..], ctx)
  }

  /** A non-empty run sounds its first decision, then the rest. */
  lemma RenderUnfold(decs: seq<Decision>, spans: seq<Span>, ctx: Context)
    requires ValidContext(ctx) && AllAllowed(decs, ctx) && |decs| == |spans| > 0
    ensures AllAllowed(decs[1..], ctx) && Allowed(decs[0], ctx)
    ensures Render(decs, spans, ctx) == Sound(decs[0], spans[0], ctx) + Render(decs[1..], spans[1..], ctx)
  {
    assert decs[0] in decs && forall dec :: dec in decs[1..] ==> dec in decs;
    assert Render(decs, spans, ctx) == RenderFirst(decs, spans, ctx);
  }

  /** A stretch of track played as the given decisions over the given spans:
      each decision is one generate_note could take, and the stretch is
      exactly the notes they sound, in order. */
  predicate PlayedIn(es: seq<Event>, spans: seq<Span>, decs: seq<Decision>, ctx: Context) {
    && ValidContext(ctx) && AllAllowed(decs, ctx) && |decs| == |spans|
    && es == Render(decs, spans, ctx)
  }

  /** Rendering decisions one run after another renders each run in turn. */
  lemma {:induction false} RenderConcat(da: seq<Decision>, db: seq<Decision>, sa: seq<Span>, sb: seq<Span>, ctx: Context)
    requires ValidContext(ctx) && AllAllowed(da, ctx) && AllAllowed(db, ctx)
    requires |da| == |sa| && |db| == |sb|
    ensures AllAllowed(da + db, ctx)
    ensures Render(da + db, sa + sb, ctx) == Render(da, sa, ctx) + Render(db, sb, ctx)
    decreases |da|
  {
    if |da| == 0 {
      assert da + db == db && sa + sb == sb;
    } else {
      var da', sa' := da[1..], sa[1..];
      assert forall dec :: dec in da' ==> dec in da;
      RenderConcat(da', db, sa', sb, ctx);
      HeadTail(da, db);
      HeadTail(sa, sb);
      RenderUnfold(da + db, sa + sb, ctx);
      RenderUnfold(da, sa, ctx);
      var g := Sound(da[0], sa[0], ctx);
      calc {
        Render(da + db, sa + sb, ctx);
        g + Render(da' + db, sa' + sb, ctx);
        g + (Render(da', sa', ctx) + Render(db, sb, ctx));
        { AppendAssoc(g, Render(da', sa', ctx), Render(db, sb, ctx)); }
        (g + Render(da', sa', ctx)) + Render(db, sb, ctx);
        Render(da, sa, ctx) + Render(db, sb, ctx);
      }
    }
  }

  /** Two stretches played one after the other are played as the first's
      decisions followed by the second's. */
  lemma PlayedInConcat(a: seq<Event>, b: seq<Event>, sa: seq<Span>, sb: seq<Span>, da: seq<Decision>, db: seq<Decision>, ctx: Context)
    requires PlayedIn(a, sa, da, ctx) && PlayedIn(b, sb, db, ctx)
    ensures PlayedIn(a + b, sa + sb, da + db, ctx)
  {
    RenderConcat(da, db, sa, sb, ctx);
  }

  /** One decision alone. */
  lemma PlayedOne(g: seq<Event>, span: Span, decs: seq<Decision>, ctx: Context)
    requires ValidContext(ctx) && |decs| == 1 && Allowed(decs[0], ctx) && g == Sound(decs[0], span, ctx)
    ensures PlayedIn(g, [span], decs, ctx)
  {
    assert decs[0] in decs && forall dec :: dec in decs ==> dec == decs[0];
    RenderUnfold(decs, [span], ctx);
    assert decs[1..] == [] && [span][1..] == [];
    assert g + [] == g;
  }

  /** Three decisions over consecutive spans. */
  lemma ThreePlayed(a: seq<Event>, b: seq<Event>, c: seq<Event>, da: seq<Decision>, db: seq<Decision>, dc: seq<Decision>,
                    t0: nat, t1: nat, t2: nat, t3: nat, ctx: Context)
    requires PlayedIn(a, [Span(t0, t1)], da, ctx)
    requires PlayedIn(b, [Span(t1, t2)], db, ctx)
    requires PlayedIn(c, [Span(t2, t3)], dc, ctx)
    ensures PlayedIn(a + b + c, [Span(t0, t1), Span(t1, t2), Span(t2, t3)], da + db + dc, ctx)
  {
    PlayedInConcat(a, b, [Span(t0, t1)], [Span(t1, t2)], da, db, ctx);
    PlayedInConcat(a + b, c, [Span(t0, t1)] + [Span(t1, t2)], [Span(t2, t3)], da + db, dc, ctx);
    assert [Span(t0, t1)] + [Span(t1, t2)] + [Span(t2, t3)] == [Span(t0, t1), Span(t1, t2), Span(t2, t3)];
  }

  /** The three decisions of a triplet, one in each third. */
  lemma TripletPlayed(d: Division, from: nat, a: seq<Event>, b: seq<Event>, c: seq<Event>,
                      da: seq<Decision>, db: seq<Decision>, dc: seq<Decision>, t1: nat, t2: nat, t3: nat, ctx: Context)
    requires IsTriplet(d) && t1 == from + SubLength(d) && t2 == t1 + SubLength(d) && t3 == t2 + SubLength(d)
    requires PlayedIn(a, [Span(from, t1)], da, ctx)
    requires PlayedIn(b, [Span(t1, t2)], db, ctx)
    requires PlayedIn(c, [Span(t2, t3)], dc, ctx)
    ensures PlayedIn(a + b + c, SlotSpans(d, from), da + db + dc, ctx)
  {
    ThreePlayed(a, b, c, da, db, dc, from, t1, t2, t3, ctx);
  }

  /** The one decision of a plain division, over its whole length. */
  lemma PlainPlayed(d: Division, from: nat, g: seq<Event>, dg: seq<Decision>, to: nat, ctx: Context)
    requires !IsTriplet(d) && to == from + Length(d)
    requires PlayedIn(g, [Span(from, to)], dg, ctx)
    ensures PlayedIn(g, SlotSpans(d, from), dg, ctx)
  {
    assert SlotSpans(d, from) == [Span(from, to)];
  }

  /** A roll that rests needs a positive rest probability, and one that
      does not rest a probability of at most 0.99. */
  lemma RollAllowed(roll: nat, restProb: real)
    requires roll < 100
    ensures Rests(roll, restProb) ==> restProb > 0.0
    ensures !Rests(roll, restProb) ==> restProb <= 0.99
  {
    assert 0.0 <= roll as real <= 99.0;
  }

  /** One call of generate_note is one decision over its span: a rest, or a
      listed chord type on a drawn degree, sounding that chord. */
  lemma NoteDecision(at: Cursor, duration: nat, ctx: Context, rng: Rng, p: Played)
    requires ValidContext(ctx) && GenerateNote(at, duration, ctx, rng) == Ok(p)
    ensures PlayedIn(p.events, [Span(at.time, p.next.time)], p.decisions, ctx)
  {
    var span := Span(at.time, at.time + duration);
    NoteSounds(at, duration, ctx, rng, p);
    assert Span(at.time, p.next.time) == span;
    PlayedOne(p.events, span, p.decisions, ctx);
  }

  /** A call of generate_note takes one decision it can take, and appends
      the notes that decision sounds over its span. */
  lemma NoteSounds(at: Cursor, duration: nat, ctx: Context, rng: Rng, p: Played)
    requires ValidContext(ctx) && GenerateNote(at, duration, ctx, rng) == Ok(p)
    ensures |p.decisions| == 1 && Allowed(p.decisions[0], ctx)
    ensures p.events == Sound(p.decisions[0], Span(at.time, at.time + duration), ctx)
  {
    var roll := rng(at.pos) % 100;
    RollAllowed(roll, ctx.restProb);
    if Rests(roll, ctx.restProb) {
      assert p == Played([Rest], [], Cursor(at.time + duration, at.pos + 1));
    } else {
      var dec := Play(Choice(ctx.chordTypes, rng, at.pos + 1), RandInt(rng, at.pos + 2, 0, |ctx.base| - 1) as nat);
      assert p == Played([dec], Sound(dec, Span(at.time, at.time + duration), ctx), Cursor(at.time + duration, at.pos + 3));
    }
  }

  /** One scheduled slot of a drawn division: three notes of a third of its
      length for a triplet, one note of its whole length otherwise. */
  function Slot(at: Cursor, d: Division, ctx: Context, rng: Rng): (r: Result<Played>)
    requires ValidContext(ctx)
    ensures r.Ok? ==> r.value.next.time == at.time + Length(d) && r.value.next.pos > at.pos
    ensures Playable(ctx) ==> r.Ok?
    ensures r.Ok? && ctx.restProb > 0.99 ==> r.value.events == []
    ensures r.Err? ==> r.error == EmptyChordTypes
  {
    RestsAlways(ctx.restProb);
    if IsTriplet(d) then
      var sub := SubLength(d);
      var p1 :- GenerateNote(at, sub, ctx, rng);
      var p2 :- GenerateNote(p1.next, sub, ctx, rng);
      var p3 :- GenerateNote(p2.next, sub, ctx, rng);
      Ok(Played(p1.decisions + p2.decisions + p3.decisions, p1.events + p2.events + p3.events, p3.next))
    else
      GenerateNote(at, Length(d), ctx, rng)
  }

  /** What one call of the slot decision appends is laid out in its span. */
  lemma NoteLaid(at: Cursor, duration: nat, ctx: Context, rng: Rng, p: Played)
    requires ValidContext(ctx) && duration > 0 && GenerateNote(at, duration, ctx, rng) == Ok(p)
    ensures p.next.time == at.time + duration
    ensures Laid(p.events, at.time, p.next.time, ctx)
  {
    GroupLaid(p.events, at.time, at.time + duration, ctx);
  }

  /** The three notes of a triplet, one after the other, are laid out in the
      three thirds of its span. */
  lemma TripletLaid(at: Cursor, sub: nat, ctx: Context, rng: Rng, p1: Played, p2: Played, p3: Played)
    requires ValidContext(ctx) && sub > 0
    requires GenerateNote(at, sub, ctx, rng) == Ok(p1)
    requires GenerateNote(p1.next, sub, ctx, rng) == Ok(p2)
    requires GenerateNote(p2.next, sub, ctx, rng) == Ok(p3)
    ensures p3.next.time == at.time + 3 * sub
    ensures Laid(p1.events + p2.events + p3.events, at.time, at.time + 3 * sub, ctx)
  {
    NoteLaid(at, sub, ctx, rng, p1);
    NoteLaid(p1.next, sub, ctx, rng, p2);
    NoteLaid(p2.next, sub, ctx, rng, p3);
    var a, b, c := p1.events, p2.events, p3.events;
    var t0, t1, t2, t3 := at.time, p1.next.time, p2.next.time, p3.next.time;
    LaidConcat(a, b, t0, t1, t2, ctx);
    LaidConcat(a + b, c, t0, t2, t3, ctx);
  }

  /** A slot's notes are laid out in its span. */
  lemma SlotLaid(at: Cursor, d: Division, ctx: Context, rng: Rng, p: Played)
    requires ValidContext(ctx) && Slot(at, d, ctx, rng) == Ok(p)
    ensures p.next.time == at.time + Length(d)
    ensures Laid(p.events, at.time, p.next.time, ctx)
  {
    var sub := SubLength(d);
    if IsTriplet(d) {
      var p1 := GenerateNote(at, sub, ctx, rng).value;
      var p2 := GenerateNote(p1.next, sub, ctx, rng).value;
      var p3 := GenerateNote(p2.next, sub, ctx, rng).value;
      TripletLaid(at, sub, ctx, rng, p1, p2, p3);
    } else {
      GroupLaid(p.events, at.time, at.time + sub, ctx);
    }
  }

  /** A slot is played as its decisions: for a triplet, one decision in
      each third of its span, and otherwise one over the whole span. */
  lemma SlotPlayed(at: Cursor, d: Division, ctx: Context, rng: Rng, p: Played)
    requires ValidContext(ctx) && Slot(at, d, ctx, rng) == Ok(p)
    ensures PlayedIn(p.events, SlotSpans(d, at.time), p.decisions, ctx)
  {
    var sub := SubLength(d);
    if IsTriplet(d) {
      var p1 := GenerateNote(at, sub, ctx, rng).value;
      var p2 := GenerateNote(p1.next, sub, ctx, rng).value;
      var p3 := GenerateNote(p2.next, sub, ctx, rng).value;
      NoteDecision(at, sub, ctx, rng, p1);
      NoteDecision(p1.next, sub, ctx, rng, p2);
      NoteDecision(p2.next, sub, ctx, rng, p3);
      TripletPlayed(d, at.time, p1.events, p2.events, p3.events, p1.decisions, p2.decisions, p3.decisions,
                    p1.next.time, p2.next.time, p3.next.time, ctx);
    } else {
      NoteDecision(at, Length(d), ctx, rng, p);
      PlainPlayed(d, at.time, p.events, p.decisions, p.next.time, ctx);
    }
  }

  /** When every decision sounds, one sounds at least one note, starting
      where its span starts. */
  lemma SoundingOne(dec: Decision, span: Span, ctx: Context)
    requires ValidContext(ctx) && Allowed(dec, ctx) && Sounding(ctx)
    ensures |Sound(dec, span, ctx)| > 0 && Sound(dec, span, ctx)[0].start == span.start
  {
    assert dec.Play? && dec.chordType in ctx.chordTypes;
  }

  /** When every decision sounds, a note starts where each decision's span
      starts. */
  lemma {:induction false} SoundingStarts(es: seq<Event>, spans: seq<Span>, decs: seq<Decision>, ctx: Context)
    requires PlayedIn(es, spans, decs, ctx) && Sounding(ctx)
    ensures forall j :: 0 <= j < |spans| ==> exists k :: 0 <= k < |es| && es[k].start == spans[j].start
    decreases |spans|
  {
    if |spans| > 0 {
      RenderUnfold(decs, spans, ctx);
      var g := Sound(decs[0], spans[0], ctx);
      var rest := Render(decs[1..], spans[1..], ctx);
      SoundingOne(decs[0], spans[0], ctx);
      SoundingStarts(rest, spans[1..], decs[1..], ctx);
      forall j | 0 <= j < |spans|
        ensures exists k :: 0 <= k < |es| && es[k].start == spans[j].start
      {
        if j == 0 {
          assert es[0] == g[0];
        } else {
          var k :| 0 <= k < |rest| && rest[k].start == spans[1..][j - 1].start;
          assert es[|g| + k] == rest[k];
        }
      }
    }
  }

  /** When every decision sounds, a slot puts a note at its start and, for a
      triplet, one at the start of each of its other two thirds. */
  lemma SlotSounds(at: Cursor, d: Division, ctx: Context, rng: Rng, p: Played)
    requires ValidContext(ctx) && Slot(at, d, ctx, rng) == Ok(p) && Sounding(ctx)
    ensures exists k :: 0 <= k < |p.events| && p.events[k].start == at.time
    ensures IsTriplet(d) ==>
      && (exists k :: 0 <= k < |p.events| && p.events[k].start == at.time + SubLength(d))
      && (exists k :: 0 <= k < |p.events| && p.events[k].start == at.time + 2 * SubLength(d))
  {
    SlotPlayed(at, d, ctx, rng, p);
    var spans := SlotSpans(d, at.time);
    SoundingStarts(p.events, spans, p.decisions, ctx);
    assert spans[0].start == at.time;
    if IsTriplet(d) {
      assert spans[1].start == at.time + SubLength(d) && spans[2].start == at.time + 2 * SubLength(d);
    }
  }

  /** The notes of one call of the slot decision start at the cursor and
      end a duration later. */
  lemma NoteTiming(at: Cursor, duration: nat, ctx: Context, rng: Rng, p: Played)
    requires ValidContext(ctx) && GenerateNote(at, duration, ctx, rng) == Ok(p)
    ensures p.next.time == at.time + duration
    ensures forall k :: 0 <= k < |p.events| ==> p.events[k].start == at.time && p.events[k].end == at.time + duration
  {
  }

  /** Three groups of notes, each lasting `sub` from its third of a span. */
  lemma TimedThree(a: seq<Event>, b: seq<Event>, c: seq<Event>, from: nat, sub: nat)
    requires forall k :: 0 <= k < |a| ==> a[k].start == from && a[k].end == from + sub
    requires forall k :: 0 <= k < |b| ==> b[k].start == from + sub && b[k].end == from + 2 * sub
    requires forall k :: 0 <= k < |c| ==> c[k].start == from + 2 * sub && c[k].end == from + 3 * sub
    ensures forall k :: 0 <= k < |a + b + c| ==>
      && (a + b + c)[k].end == (a + b + c)[k].start + sub
      && (a + b + c)[k].start in {from, from + sub, from + 2 * sub}
  {
    var es := a + b + c;
    forall k | 0 <= k < |es|
      ensures es[k].end == es[k].start + sub
      ensures es[k].start in {from, from + sub, from + 2 * sub}
    {
      if k < |a| {
        assert es[k] == a[k];
      } else if k < |a| + |b| {
        assert es[k] == b[k - |a|];
      } else {
        assert es[k] == c[k - |a| - |b|];
      }
    }
  }

  /** Each note of a slot lasts the slot's note length and starts at the
      slot's start or, for a triplet, at the start of one of its thirds. */
  lemma SlotTiming(at: Cursor, d: Division, ctx: Context, rng: Rng, p: Played)
    requires ValidContext(ctx) && Slot(at, d, ctx, rng) == Ok(p)
    ensures forall k :: 0 <= k < |p.events| ==> p.events[k].end == p.events[k].start + SubLength(d)
    ensures forall k :: 0 <= k < |p.events| ==>
      || p.events[k].start == at.time
      || (IsTriplet(d) && p.events[k].start in {at.time + SubLength(d), at.time + 2 * SubLength(d)})
  {
    var sub := SubLength(d);
    if IsTriplet(d) {
      var p1 := GenerateNote(at, sub, ctx, rng).value;
      var p2 := GenerateNote(p1.next, sub, ctx, rng).value;
      var p3 := GenerateNote(p2.next, sub, ctx, rng).value;
      NoteTiming(at, sub, ctx, rng, p1);
      NoteTiming(p1.next, sub, ctx, rng, p2);
      NoteTiming(p2.next, sub, ctx, rng, p3);
      TimedThree(p1.events, p2.events, p3.events, at.time, sub);
      assert p.events == p1.events + p2.events + p3.events;
    } else {
      NoteTiming(at, sub, ctx, rng, p);
    }
  }

  /** The divisions a bar accepted, the decisions of their slots, the notes
      it appends, and the cursor it leaves behind. */
  datatype Bar = Bar(divisions: seq<Division>, decisions: seq<Decision>, events: seq<Event>, next: Cursor)

  /** The bar-filling loop for what is left of one bar: draw a division among
      those of the vocabulary that fit, schedule its slot, spend its nominal
      length, and go on until nothing is left. */
  function FillBar(at: Cursor, ticksLeft: nat, ctx: Context, rng: Rng): (r: Result<Bar>)
    requires ValidContext(ctx)
    requires Measured(ctx.vocab, ticksLeft)
    ensures r.Ok? ==> Consumes(r.value.divisions, ticksLeft)
    ensures r.Ok? ==> forall d :: d in r.value.divisions ==> d in ctx.vocab
    ensures r.Ok? ==> r.value.next.time == at.time + ticksLeft && r.value.next.pos >= at.pos
    ensures ticksLeft > 0 && |ctx.vocab| == 0 ==> r == Err(EmptyDivisions)
    ensures r.Err? ==> r.error == EmptyDivisions || r.error == EmptyChordTypes
    ensures |ctx.vocab| > 0 && Playable(ctx) ==> r.Ok?
    ensures r.Ok? && ctx.restProb > 0.99 ==> r.value.events == []
    ensures r.Ok? ==> Laid(r.value.events, at.time, at.time + ticksLeft, ctx)
    ensures r.Ok? ==> PlayedIn(r.value.events, Spans(r.value.divisions, at.time), r.value.decisions, ctx)
    decreases ticksLeft
  {
    if ticksLeft == 0 then
      LaidEmpty(at.time, at.time, ctx);
      assert PlayedIn([], Spans([], at.time), [], ctx);
      Ok(Bar([], [], [], at))
    else if |ctx.vocab| == 0 then
      Err(EmptyDivisions)
    else
      SmallestAlwaysFits(ctx.vocab, ticksLeft);
      var d := Choice(Fitting(ctx.vocab, ticksLeft), rng, at.pos);
      BudgetStaysMeasured(ctx.vocab, ticksLeft, d);
      var slot :- Slot(Cursor(at.time, at.pos + 1), d, ctx, rng);
      var rest :- FillBar(slot.next, ticksLeft - Length(d), ctx, rng);
      SlotThenBar(at, ticksLeft, d, ctx, rng, slot, rest);
      Ok(Bar([d] + rest.divisions, slot.decisions + rest.decisions, slot.events + rest.events, rest.next))
  }

  /** A slot of a fitting vocabulary division, followed by the rest of the
      bar filled from where the slot ended, is a filled bar: it keeps every
      promise of the bar-filling loop, given those of the rest. */
  lemma SlotThenBar(at: Cursor, ticksLeft: nat, d: Division, ctx: Context, rng: Rng, slot: Played, rest: Bar)
    requires ValidContext(ctx) && d in ctx.vocab && Length(d) <= ticksLeft
    requires Slot(Cursor(at.time, at.pos + 1), d, ctx, rng) == Ok(slot)
    requires Consumes(rest.divisions, ticksLeft - Length(d))
    requires forall x :: x in rest.divisions ==> x in ctx.vocab
    requires rest.next.time == slot.next.time + (ticksLeft - Length(d)) && rest.next.pos >= slot.next.pos
    requires ctx.restProb > 0.99 ==> rest.events == []
    requires Laid(rest.events, slot.next.time, slot.next.time + (ticksLeft - Length(d)), ctx)
    requires PlayedIn(rest.events, Spans(rest.divisions, slot.next.time), rest.decisions, ctx)
    ensures Consumes([d] + rest.divisions, ticksLeft)
    ensures forall x :: x in [d] + rest.divisions ==> x in ctx.vocab
    ensures rest.next.time == at.time + ticksLeft && rest.next.pos >= at.pos
    ensures ctx.restProb > 0.99 ==> slot.events + rest.events == []
    ensures Laid(slot.events + rest.events, at.time, at.time + ticksLeft, ctx)
    ensures PlayedIn(slot.events + rest.events, Spans([d] + rest.divisions, at.time), slot.decisions + rest.decisions, ctx)
  {
    ConsumesCons(d, rest.divisions, ticksLeft);
    SlotThenLaid(at, ticksLeft, d, ctx, rng, slot, rest.events);
    SlotThenPlayed(at, d, ctx, rng, slot, rest.events, rest.decisions, rest.divisions);
  }

  /** A slot followed by a stretch laid out over the rest of the span. */
  lemma SlotThenLaid(at: Cursor, ticksLeft: nat, d: Division, ctx: Context, rng: Rng, slot: Played, rest: seq<Event>)
    requires ValidContext(ctx) && Length(d) <= ticksLeft
    requires Slot(Cursor(at.time, at.pos + 1), d, ctx, rng) == Ok(slot)
    requires Laid(rest, slot.next.time, slot.next.time + (ticksLeft - Length(d)), ctx)
    ensures Laid(slot.events + rest, at.time, at.time + ticksLeft, ctx)
  {
    SlotLaid(Cursor(at.time, at.pos + 1), d, ctx, rng, slot);
    LaidConcat(slot.events, rest, at.time, slot.next.time, at.time + ticksLeft, ctx);
  }

  /** The notes of a slot followed by a stretch played as the slots of
      further divisions. */
  lemma PlayedThen(from: nat, to: nat, d: Division, g: seq<Event>, dg: seq<Decision>, rest: seq<Event>, dr: seq<Decision>,
                   ds: seq<Division>, ctx: Context)
    requires to == from + Length(d)
    requires PlayedIn(g, SlotSpans(d, from), dg, ctx)
    requires PlayedIn(rest, Spans(ds, to), dr, ctx)
    ensures PlayedIn(g + rest, Spans([d] + ds, from), dg + dr, ctx)
  {
    PlayedInConcat(g, rest, SlotSpans(d, from), Spans(ds, to), dg, dr, ctx);
    assert ([d] + ds)[0] == d && ([d] + ds)[1..] == ds;
  }

  /** A slot followed by a stretch played as the slots of further divisions. */
  lemma SlotThenPlayed(at: Cursor, d: Division, ctx: Context, rng: Rng, slot: Played, rest: seq<Event>, dr: seq<Decision>,
                       ds: seq<Division>)
    requires ValidContext(ctx) && Slot(Cursor(at.time, at.pos + 1), d, ctx, rng) == Ok(slot)
    requires PlayedIn(rest, Spans(ds, slot.next.time), dr, ctx)
    ensures PlayedIn(slot.events + rest, Spans([d] + ds, at.time), slot.decisions + dr, ctx)
  {
    SlotPlayed(Cursor(at.time, at.pos + 1), d, ctx, rng, slot);
    PlayedThen(at.time, slot.next.time, d, slot.events, slot.decisions, rest, dr, ds, ctx);
  }

  /** What the scheduler does when it can only play single quarter notes:
      never rest, draw "single" and a quarter every time. */
  predicate OnlySingleQuarters(ctx: Context) {
    && ctx.vocab == [Quarter]
    && ctx.chordTypes == [Single] && ctx.restProb <= 0.0
  }

  /** Notes a beat long, one on each beat from tick `from`, filling `ticks`
      ticks. */
  predicate OnTheBeats(es: seq<Event>, from: nat, ticks: nat) {
    && |es| * 12 == ticks
    && forall i :: 0 <= i < |es| ==> es[i].start == from + 12 * i && es[i].end == from + 12 * i + 12
  }

  /** Quarter slots whose decisions can only play "single" put one note on
      each beat, back to back. */
  lemma {:induction false} QuartersOnTheBeats(es: seq<Event>, divs: seq<Division>, decs: seq<Decision>, from: nat, ctx: Context)
    requires Sounding(ctx) && forall c :: c in ctx.chordTypes ==> c == Single
    requires forall d :: d in divs ==> d == Quarter
    requires PlayedIn(es, Spans(divs, from), decs, ctx)
    ensures OnTheBeats(es, from, SumLengths(divs))
    decreases |divs|
  {
    if |divs| == 0 {
      assert Spans(divs, from) == [];
    } else {
      var spans, rest := Spans(divs, from), Spans(divs[1..], from + 12);
      assert divs[0] in divs && forall d :: d in divs[1..] ==> d in divs;
      assert spans == [Span(from, from + 12)] + rest;
      assert spans[0] == Span(from, from + 12) && spans[1..] == rest;
      RenderUnfold(decs, spans, ctx);
      var g := Sound(decs[0], spans[0], ctx);
      assert decs[0].chordType in ctx.chordTypes;
      assert |g| == 1 && g[0].start == from && g[0].end == from + 12;
      assert es == g + Render(decs[1..], rest, ctx);
      assert es[1..] == Render(decs[1..], rest, ctx);
      QuartersOnTheBeats(es[1..], divs[1..], decs[1..], from + 12, ctx);
      OnTheBeatsCons(g, es[1..], from, SumLengths(divs));
      assert g + es[1..] == es;
    }
  }

  /** A budget of whole beats filled with single quarter notes plays one
      note a beat, back to back. */
  lemma QuarterBar(at: Cursor, n: nat, ctx: Context, rng: Rng, bar: Bar)
    requires ValidContext(ctx) && OnlySingleQuarters(ctx) && WholeUnits(n, 12)
    requires FillBar(at, n, ctx, rng) == Ok(bar)
    ensures OnTheBeats(bar.events, at.time, n)
  {
    assert Sounding(ctx);
    ConsumesIffSum(bar.divisions, n);
    QuartersOnTheBeats(bar.events, bar.divisions, bar.decisions, at.time, ctx);
  }

  /** A note on the first beat followed by notes on the beats after it. */
  lemma OnTheBeatsCons(first: seq<Event>, rest: seq<Event>, from: nat, ticks: nat)
    requires ticks >= 12 && |first| == 1
    requires first[0].start == from && first[0].end == from + 12
    requires OnTheBeats(rest, from + 12, ticks - 12)
    ensures OnTheBeats(first + rest, from, ticks)
  {
    var es := first + rest;
    forall i | 0 <= i < |es|
      ensures es[i].start == from + 12 * i && es[i].end == from + 12 * i + 12
    {
      if i > 0 {
        assert es[i] == rest[i - 1];
      }
    }
  }

  function Max0(n: int): nat {
    if n > 0 then n else 0
  }

  /** The divisions accepted in each bar of a run, the decisions of their
      slots, the notes of the run, and the cursor they leave behind. */
  datatype Filled = Filled(bars: seq<seq<Division>>, decisions: seq<Decision>, events: seq<Event>, next: Cursor)

  /** The loop over the bars: each bar starts a fresh budget of four beats,
      while the time cursor carries on from where the previous bar ended. */
  function FillBars(at: Cursor, n: int, ctx: Context, rng: Rng): (r: Result<Filled>)
    requires ValidContext(ctx)
    ensures r.Ok? ==> |r.value.bars| == Max0(n)
    ensures r.Ok? ==> r.value.next.time == at.time + RunTicks(n) && r.value.next.pos >= at.pos
    ensures n > 0 && |ctx.vocab| == 0 ==> r == Err(EmptyDivisions)
    ensures r.Err? ==> r.error == EmptyDivisions || r.error == EmptyChordTypes
    ensures n <= 0 || (|ctx.vocab| > 0 && (|ctx.chordTypes| > 0 || ctx.restProb > 0.99)) ==> r.Ok?
    ensures r.Ok? && ctx.restProb > 0.99 ==> r.value.events == []
    ensures r.Ok? ==> Laid(r.value.events, at.time, at.time + RunTicks(n), ctx)
    ensures r.Ok? ==> forall d :: d in Flatten(r.value.bars) ==> d in ctx.vocab
    ensures r.Ok? ==> PlayedIn(r.value.events, Spans(Flatten(r.value.bars), at.time), r.value.decisions, ctx)
    decreases n, 2
  {
    if n <= 0 then
      LaidEmpty(at.time, at.time, ctx);
      assert PlayedIn([], Spans(Flatten([]), at.time), [], ctx);
      Ok(Filled([], [], [], at))
    else
      FillBarsOnFails(at, n, ctx, rng);
      FillBarsOnFills(at, n, ctx, rng);
      FillBarsOn(at, n, ctx, rng)
  }

  /** A run of one bar or more: the first bar from the cursor, then the
      other bars from where it ended. */
  function FillBarsOn(at: Cursor, n: int, ctx: Context, rng: Rng): Result<Filled>
    requires ValidContext(ctx) && n > 0
    decreases n, 0
  {
    FullBarMeasured(ctx.vocab);
    match FillBar(at, BarTicks, ctx, rng)
    case Err(e) => Err(e)
    case Ok(bar) =>
      match FillBars(bar.next, n - 1, ctx, rng)
      case Err(e) => Err(e)
      case Ok(rest) =>
        Ok(Filled([bar.divisions] + rest.bars, bar.decisions + rest.decisions, bar.events + rest.events, rest.next))
  }

  /** What n bars filled from the cursor hold: one division list per bar, all
      from the vocabulary, ending four beats a bar later, the notes laid
      inside the run and exactly the ones its decisions sound, and silence
      when every slot rests. */
  predicate RunFilled(at: Cursor, n: int, ctx: Context, f: Filled)
    requires ValidContext(ctx)
  {
    && |f.bars| == Max0(n)
    && f.next.time == at.time + RunTicks(n) && f.next.pos >= at.pos
    && (ctx.restProb > 0.99 ==> f.events == [])
    && Laid(f.events, at.time, at.time + RunTicks(n), ctx)
    && (forall d :: d in Flatten(f.bars) ==> d in ctx.vocab)
    && PlayedIn(f.events, Spans(Flatten(f.bars), at.time), f.decisions, ctx)
  }

  /** When a run of one bar or more fails, and when it cannot. */
  lemma FillBarsOnFails(at: Cursor, n: int, ctx: Context, rng: Rng)
    requires ValidContext(ctx) && n > 0
    ensures |ctx.vocab| == 0 ==> FillBarsOn(at, n, ctx, rng) == Err(EmptyDivisions)
    ensures FillBarsOn(at, n, ctx, rng).Err? ==>
              FillBarsOn(at, n, ctx, rng).error == EmptyDivisions || FillBarsOn(at, n, ctx, rng).error == EmptyChordTypes
    ensures |ctx.vocab| > 0 && (|ctx.chordTypes| > 0 || ctx.restProb > 0.99) ==> FillBarsOn(at, n, ctx, rng).Ok?
    decreases n, 1
  {
    FullBarMeasured(ctx.vocab);
  }

  /** What a run of one bar or more holds when it succeeds. */
  lemma FillBarsOnFills(at: Cursor, n: int, ctx: Context, rng: Rng)
    requires ValidContext(ctx) && n > 0
    ensures FillBarsOn(at, n, ctx, rng).Ok? ==> RunFilled(at, n, ctx, FillBarsOn(at, n, ctx, rng).value)
    decreases n, 1
  {
    FullBarMeasured(ctx.vocab);
    match FillBar(at, BarTicks, ctx, rng)
    case Err(_) =>
    case Ok(bar) =>
      match FillBars(bar.next, n - 1, ctx, rng)
      case Err(_) =>
      case Ok(rest) =>
        ConsumesIffSum(bar.divisions, BarTicks);
        BarsLaid(at, n, bar, rest, ctx);
        BarsPlayed(at.time, bar, rest, ctx);
  }

  /** The ticks of a run of n bars, four beats each. */
  function RunTicks(n: int): nat {
    if n <= 0 then 0 else BarTicks + RunTicks(n - 1)
  }

  /** A run of n bars lasts n times a bar. */
  lemma {:induction false} RunTicksIsProduct(n: int)
    ensures RunTicks(n) == BarTicks * Max0(n)
  {
    if n > 0 {
      RunTicksIsProduct(n - 1);
    }
  }

  /** A full bar from the cursor followed by the other bars from where it
      ended is laid out from the cursor to four beats a bar later. */
  lemma BarsLaid(at: Cursor, n: int, bar: Bar, rest: Filled, ctx: Context)
    requires n > 0 && bar.next.time == at.time + BarTicks
    requires Laid(bar.events, at.time, at.time + BarTicks, ctx)
    requires Laid(rest.events, bar.next.time, bar.next.time + RunTicks(n - 1), ctx)
    ensures Laid(bar.events + rest.events, at.time, at.time + RunTicks(n), ctx)
  {
    LaidConcat(bar.events, rest.events, at.time, bar.next.time, at.time + RunTicks(n), ctx);
  }

  /** A bar played over its divisions, followed by the other bars played
      from where it ended, is played over the divisions of all the bars, and
      those all come from the vocabulary. */
  lemma BarsPlayed(from: nat, bar: Bar, rest: Filled, ctx: Context)
    requires bar.next.time == from + SumLengths(bar.divisions)
    requires PlayedIn(bar.events, Spans(bar.divisions, from), bar.decisions, ctx)
    requires PlayedIn(rest.events, Spans(Flatten(rest.bars), bar.next.time), rest.decisions, ctx)
    requires forall d :: d in bar.divisions ==> d in ctx.vocab
    requires forall d :: d in Flatten(rest.bars) ==> d in ctx.vocab
    ensures PlayedIn(bar.events + rest.events, Spans(Flatten([bar.divisions] + rest.bars), from),
                     bar.decisions + rest.decisions, ctx)
    ensures forall d :: d in Flatten([bar.divisions] + rest.bars) ==> d in ctx.vocab
  {
    FlattenCons(bar.divisions, rest.bars);
    forall d | d in Flatten([bar.divisions] + rest.bars)
      ensures d in ctx.vocab
    {
      assert d in bar.divisions || d in Flatten(rest.bars);
    }
    SpansOfBars(bar.divisions, rest.bars, from, bar.next.time);
    PlayedInConcat(bar.events, rest.events, Spans(bar.divisions, from), Spans(Flatten(rest.bars), bar.next.time),
                   bar.decisions, rest.decisions, ctx);
  }

  /** One round of the loop over the bars, spelled out: the first bar from
      the cursor, then the other bars from where it ended. */
  lemma FillBarsStep(at: Cursor, n: int, ctx: Context, rng: Rng, filled: Filled) returns (bar: Bar, rest: Filled)
    requires ValidContext(ctx) && n > 0 && FillBars(at, n, ctx, rng) == Ok(filled)
    ensures Measured(ctx.vocab, BarTicks)
    ensures FillBar(at, BarTicks, ctx, rng) == Ok(bar)
    ensures FillBars(bar.next, n - 1, ctx, rng) == Ok(rest)
    ensures filled.bars == [bar.divisions] + rest.bars && filled.events == bar.events + rest.events
  {
    FullBarMeasured(ctx.vocab);
    bar := FillBar(at, BarTicks, ctx, rng).value;
    rest := FillBars(bar.next, n - 1, ctx, rng).value;
  }

  /** One bar from time zero filled with single quarter notes: four notes,
      one on each beat. */
  lemma QuarterFill(pos: nat, ctx: Context, rng: Rng, filled: Filled)
    requires ValidContext(ctx) && OnlySingleQuarters(ctx)
    requires FillBars(Cursor(0, pos), 1, ctx, rng) == Ok(filled)
    ensures OnTheBeats(filled.events, 0, BarTicks)
  {
    var bar, more := FillBarsStep(Cursor(0, pos), 1, ctx, rng, filled);
    assert more.events == [];
    WholeUnitsMod(BarTicks, Quarter);
    QuarterBar(Cursor(0, pos), BarTicks, ctx, rng, bar);
    assert filled.events == bar.events;
  }

  /** Every bar of the run spends its four beats exactly. */
  lemma {:induction false} FillBarsConsume(at: Cursor, n: int, ctx: Context, rng: Rng, filled: Filled)
    requires ValidContext(ctx) && FillBars(at, n, ctx, rng) == Ok(filled)
    ensures forall b :: 0 <= b < |filled.bars| ==> Consumes(filled.bars[b], BarTicks)
    decreases n
  {
    if n > 0 {
      FullBarMeasured(ctx.vocab);
      var bar := FillBar(at, BarTicks, ctx, rng).value;
      var rest := FillBars(bar.next, n - 1, ctx, rng).value;
      FillBarsConsume(bar.next, n - 1, ctx, rng, rest);
      assert filled.bars == [bar.divisions] + rest.bars;
      BarsConsumeCons(bar.divisions, rest.bars);
    }
  }

  /** A bar that spends its four beats followed by bars that each do. */
  lemma BarsConsumeCons(first: seq<Division>, bars: seq<seq<Division>>)
    requires Consumes(first, BarTicks)
    requires forall b :: 0 <= b < |bars| ==> Consumes(bars[b], BarTicks)
    ensures forall b :: 0 <= b < |[first] + bars| ==> Consumes(([first] + bars)[b], BarTicks)
  {
    forall b | 0 <= b < |[first] + bars|
      ensures Consumes(([first] + bars)[b], BarTicks)
    {
      if b > 0 {
        assert ([first] + bars)[b] == bars[b - 1];
      }
    }
  }
}

=== FILE: humanizer.dfy ===
/** The humanizer: every note of a timeline moved by a small timing jitter
    and given a little velocity noise, with the start, the length and the
    velocity clamped to playable values. */
module Humanizer {
  import opened Results
  import opened Draws
  import opened Notes

  /** The fraction behind one random.uniform(lo, hi) draw. random.random()
      gives a value in [0, 1), but uniform's documented range includes its
      upper end, because lo + (hi - lo) * u can round up to hi. So the model
      takes the closed interval [0, 1], and u = 1.0 stands for that rounding. */
  type Unit = u: real | 0.0 <= u <= 1.0

  /** An infinite stream of unit draws, read at a position as the integer
      draws are. */
  type UnitStream = nat -> Unit

  /** The settings used when the caller gives none: 30 ms of jitter and a
      velocity noise of 20. */
  const DefaultJitterMs: int := 30
  const DefaultVelocityNoise: int := 20

  /** The shortest note the humanizer leaves, in seconds. */
  const MinDuration: real := 0.05

  /** The velocity range the humanizer clamps to. */
  const MinVelocity: int := 20
  const MaxVelocity: int := 127

  function Abs(x: real): real {
    if x < 0.0 then -x else x
  }

  function AbsInt(x: int): nat {
    if x < 0 then -x else x
  }

  /** max(a, b) on seconds. */
  function MaxReal(a: real, b: real): (r: real)
    ensures r >= a && r >= b && (r == a || r == b)
  {
    if a >= b then a else b
  }

  /** A share u of an amount x. */
  function Scale(x: real, u: Unit): real
  {
    x * u
  }

  /** The share lies between zero and the amount, whatever the sign of the amount. */
  lemma ScaleBounds(x: real, u: Unit)
    ensures x >= 0.0 ==> 0.0 <= Scale(x, u) <= x
    ensures x <= 0.0 ==> x <= Scale(x, u) <= 0.0
  {
    if x > 0.0 {
      ScaledDown(x, u);
    } else if x < 0.0 {
      ScaledUp(x, u);
    } else {
      assert x * u == 0.0;
    }
  }

  /** random.uniform(lo, hi) from the unit draw u: lo + (hi - lo) * u, which
      lies between the two bounds in whichever order they are given. */
  function Uniform(lo: real, hi: real, u: Unit): (r: real)
    ensures lo <= hi ==> lo <= r <= hi
    ensures hi <= lo ==> hi <= r <= lo
  {
    ScaleBounds(hi - lo, u);
    lo + Scale(hi - lo, u)
  }

  /** A share of a non-negative amount is at most the amount. */
  lemma ScaledDown(x: real, u: Unit)
    ensures x >= 0.0 ==> 0.0 <= x * u <= x
  {
    if x >= 0.0 {
      NonNegativeProduct(x, u);
      NonNegativeProduct(x, 1.0 - u);
      assert x * (1.0 - u) == x - x * u;
    }
  }

  /** A share of a non-positive amount is at least the amount. */
  lemma ScaledUp(x: real, u: Unit)
    ensures x <= 0.0 ==> x <= x * u <= 0.0
  {
    if x <= 0.0 {
      NonNegativeProduct(-x, u);
      NonNegativeProduct(-x, 1.0 - u);
      assert (-x) * u == -(x * u);
      assert (-x) * (1.0 - u) == x * u - x;
    }
  }

  lemma NonNegativeProduct(x: real, y: real)
    requires x >= 0.0 && y >= 0.0
    ensures x * y >= 0.0
  {
  }

  /** Every value between the bounds is drawn by some unit draw. */
  lemma UniformCovers(lo: real, hi: real, v: real)
    requires lo < hi && lo <= v <= hi
    ensures exists u: Unit :: Uniform(lo, hi, u) == v
  {
    var d := hi - lo;
    var w := v - lo;
    ShareOf(w, d);
    var u: Unit := w / d;
    assert Scale(hi - lo, u) == w;
    assert Uniform(lo, hi, u) == v;
  }

  /** A part of a positive whole is a share of it in the unit interval. */
  lemma ShareOf(w: real, d: real)
    requires 0.0 <= w <= d && d > 0.0
    ensures 0.0 <= w / d <= 1.0 && (w / d) * d == w
  {
  }

  /** The largest jitter for a jitter setting in milliseconds, in seconds. */
  function MaxJitter(ms: int): real {
    Abs(ms as real / 1000.0)
  }

  /** The timing jitter: a uniform draw between -ms / 1000 and ms / 1000
      seconds. */
  function Jitter(ms: int, u: Unit): (r: real)
    ensures Abs(r) <= MaxJitter(ms)
  {
    Uniform(-(ms as real / 1000.0), ms as real / 1000.0, u)
  }

  /** Both extremes of the jitter are drawn: the first and the last unit
      draw move a note by the full setting, one each way. */
  lemma JitterExtremes(ms: int)
    ensures Jitter(ms, 0.0) == -(ms as real / 1000.0)
    ensures Jitter(ms, 1.0) == ms as real / 1000.0
  {
  }

  /** min(127, max(20, v)). */
  function ClampVelocity(v: int): (r: int)
    ensures MinVelocity <= r <= MaxVelocity
    ensures MinVelocity <= v <= MaxVelocity ==> r == v
    ensures v < MinVelocity ==> r == MinVelocity
    ensures v > MaxVelocity ==> r == MaxVelocity
  {
    if v > MaxVelocity then MaxVelocity else if v < MinVelocity then MinVelocity else v
  }

  /** A note the humanizer could have produced: it starts at or after zero,
      lasts at least the minimum length, and has a velocity in range. */
  predicate InBounds(n: Note) {
    && 0.0 <= n.start
    && n.start + MinDuration <= n.end
    && MinVelocity <= n.velocity <= MaxVelocity
  }

  /** One note of the loop: the jitter moves the start and the end together,
      the start is clamped at zero and the end kept the minimum length after
      it, and the velocity offset is clamped into range. The pitch stays. */
  function Perturb(n: Note, jitter: real, offset: int): (r: Note)
    ensures r.pitch == n.pitch
    ensures InBounds(r)
    ensures n.start + jitter <= r.start && n.end + jitter <= r.end
    ensures 0.0 <= n.start + jitter && MinDuration <= n.end - n.start ==>
      r.start == n.start + jitter && r.end == n.end + jitter
    ensures MinVelocity <= n.velocity + offset <= MaxVelocity ==> r.velocity == n.velocity + offset
  {
    var start := MaxReal(0.0, n.start + jitter);
    var end := MaxReal(start + MinDuration, n.end + jitter);
    Note(n.pitch, start, end, ClampVelocity(n.velocity + offset))
  }

  /** The clamps never push a note further than the noise did: a note that
      started at or after zero moves by at most the jitter, and a velocity in
      range changes by at most the offset. */
  lemma PerturbStaysClose(n: Note, jitter: real, offset: int)
    requires 0.0 <= n.start && MinVelocity <= n.velocity <= MaxVelocity
    ensures Abs(Perturb(n, jitter, offset).start - n.start) <= Abs(jitter)
    ensures AbsInt(Perturb(n, jitter, offset).velocity - n.velocity) <= AbsInt(offset)
  {
  }

  /** Without noise a playable note is left as it is, so a humanized note
      humanized again without noise is unchanged. */
  lemma PerturbQuiet(n: Note)
    requires InBounds(n)
    ensures Perturb(n, 0.0, 0) == n
  {
  }

  /** The inner loop of humanize_midi over one instrument's notes, each note
      reading its jitter and its velocity offset at its own position. */
  function HumanizeNotes(ns: seq<Note>, ms: int, velNoise: nat, units: UnitStream, rng: Rng, pos: nat): (r: seq<Note>)
    ensures |r| == |ns|
    ensures forall i :: 0 <= i < |ns| ==>
      r[i] == Perturb(ns[i], Jitter(ms, units(pos + i)), RandInt(rng, pos + i, -(velNoise as int), velNoise))
    decreases |ns|
  {
    if |ns| == 0 then
      []
    else
      var first := Perturb(ns[0], Jitter(ms, units(pos)), RandInt(rng, pos, -(velNoise as int), velNoise));
      [first] + HumanizeNotes(ns[1..], ms, velNoise, units, rng, pos + 1)
  }

  /** What the humanizer promises of a note against the one it came from:
      same pitch, in bounds, moved by at most the jitter setting when it
      started at or after zero, its length kept when it starts late enough and
      is long enough for neither clamp to fire, and its velocity moved by at
      most the noise setting when it was in range. */
  predicate Humanized(orig: Note, n: Note, ms: int, velNoise: int) {
    && n.pitch == orig.pitch
    && InBounds(n)
    && (0.0 <= orig.start ==> Abs(n.start - orig.start) <= MaxJitter(ms))
    && (MaxJitter(ms) <= orig.start && MinDuration <= orig.end - orig.start ==>
          n.end - n.start == orig.end - orig.start)
    && (MinVelocity <= orig.velocity <= MaxVelocity ==> AbsInt(n.velocity - orig.velocity) <= velNoise)
  }

  /** One note moved by a jitter and an offset within the settings keeps the
      promise. */
  lemma PerturbHumanizes(n: Note, jitter: real, offset: int, ms: int, velNoise: nat)
    requires Abs(jitter) <= MaxJitter(ms) && AbsInt(offset) <= velNoise
    ensures Humanized(n, Perturb(n, jitter, offset), ms, velNoise)
  {
    var r := Perturb(n, jitter, offset);
    if 0.0 <= n.start && MinVelocity <= n.velocity <= MaxVelocity {
      PerturbStaysClose(n, jitter, offset);
    } else if 0.0 <= n.start {
      assert Abs(r.start - n.start) <= Abs(jitter);
    } else if MinVelocity <= n.velocity <= MaxVelocity {
      assert AbsInt(r.velocity - n.velocity) <= AbsInt(offset);
    }
  }

  /** Every note of a humanized track keeps its promise. */
  lemma HumanizeNotesBounded(ns: seq<Note>, ms: int, velNoise: nat, units: UnitStream, rng: Rng, pos: nat)
    ensures forall i :: 0 <= i < |ns| ==>
      Humanized(ns[i], HumanizeNotes(ns, ms, velNoise, units, rng, pos)[i], ms, velNoise)
  {
    forall i | 0 <= i < |ns|
      ensures Humanized(ns[i], HumanizeNotes(ns, ms, velNoise, units, rng, pos)[i], ms, velNoise)
    {
      PerturbHumanizes(ns[i], Jitter(ms, units(pos + i)), RandInt(rng, pos + i, -(velNoise as int), velNoise), ms, velNoise);
    }
  }

  /** A track as the humanizer promises it against the one it came from:
      the same instrument, and note by note, in order, the promise above. */
  predicate TrackHumanized(orig: Track, t: Track, ms: int, velNoise: int) {
    && t.instrument == orig.instrument
    && |t.notes| == |orig.notes|
    && forall k :: 0 <= k < |orig.notes| ==> Humanized(orig.notes[k], t.notes[k], ms, velNoise)
  }

  /** The body of the loop over the instruments: a new track for the same
      instrument, holding the humanized notes. */
  function HumanizeTrack(t: Track, ms: int, velNoise: nat, units: UnitStream, rng: Rng, pos: nat): (r: Track)
    ensures TrackHumanized(t, r, ms, velNoise)
  {
    HumanizeNotesBounded(t.notes, ms, velNoise, units, rng, pos);
    Track(t.instrument, HumanizeNotes(t.notes, ms, velNoise, units, rng, pos))
  }

  /** The loop over the instruments: one new track per track, in order, the
      notes of each reading the draws after the previous track's. */
  function HumanizeTracks(ts: seq<Track>, ms: int, velNoise: nat, units: UnitStream, rng: Rng, pos: nat): (r: seq<Track>)
    ensures |r| == |ts|
    ensures forall i :: 0 <= i < |ts| ==> TrackHumanized(ts[i], r[i], ms, velNoise)
    decreases |ts|
  {
    if |ts| == 0 then
      []
    else
      [HumanizeTrack(ts[0], ms, velNoise, units, rng, pos)] + HumanizeTracks(ts[1..], ms, velNoise, units, rng, pos + |ts[0].notes|)
  }

  /** Some track has a note, so the velocity noise is drawn at least once. */
  predicate HasNotes(ts: seq<Track>) {
    exists i :: 0 <= i < |ts| && |ts[i].notes| > 0
  }

  /** humanize_midi: a new timeline at the given tempo, or the first failure.
      A zero tempo fails when the new timeline is created; a negative noise
      setting fails at the first velocity draw, so only when there is a note. */
  function Humanize(tl: Timeline, bpm: int, ms: int, velNoise: int, units: UnitStream, rng: Rng): (r: Result<Timeline>)
    ensures bpm == 0 ==> r == Err(ZeroTempo)
    ensures bpm != 0 && velNoise < 0 && HasNotes(tl.tracks) ==> r == Err(NegativeVelocityNoise)
    ensures r.Ok? <==> bpm != 0 && (velNoise >= 0 || !HasNotes(tl.tracks))
    ensures r.Ok? ==> r.value.bpm == bpm && |r.value.tracks| == |tl.tracks|
  {
    if bpm == 0 then
      Err(ZeroTempo)
    else if velNoise < 0 && HasNotes(tl.tracks) then
      Err(NegativeVelocityNoise)
    else
      Ok(Timeline(bpm, HumanizeTracks(tl.tracks, ms, if velNoise < 0 then 0 else velNoise, units, rng, 0)))
  }

  /** The promise of humanize_midi: the tempo is the one given, the
      instruments and their order are kept, and every track keeps its notes in
      order, each with its pitch, in bounds, and moved by no more than the two
      settings allow. */
  lemma HumanizeBounded(tl: Timeline, bpm: int, ms: int, velNoise: int, units: UnitStream, rng: Rng, out: Timeline)
    requires Humanize(tl, bpm, ms, velNoise, units, rng) == Ok(out)
    ensures out.bpm == bpm && |out.tracks| == |tl.tracks|
    ensures forall i :: 0 <= i < |tl.tracks| ==> TrackHumanized(tl.tracks[i], out.tracks[i], ms, velNoise)
  {
    if velNoise < 0 {
      assert !HasNotes(tl.tracks);
    }
  }
}

=== FILE: notes.dfy ===
/** Note events, tracks and timelines, and the conversion from the
    generator's beat ticks to seconds. */
module Notes {

  /** A twelfth of a beat: the largest unit in which every note length of
      the division table and every third of a triplet is a whole number. */
  const TicksPerBeat: nat := 12

  /** A note as the generator schedules it: times in ticks from the start. */
  datatype Event = Event(pitch: int, start: nat, end: nat, velocity: int)

  /** A note as a timeline holds it: times in seconds. */
  datatype Note = Note(pitch: int, start: real, end: real, velocity: int)

  /** One instrument's notes in the order they were appended. The instrument
      name stands in for the program number it is mapped to. */
  datatype Track = Track(instrument: string, notes: seq<Note>)

  /** A tempo and the instrument tracks. */
  datatype Timeline = Timeline(bpm: int, tracks: seq<Track>)

  /** A tick count in seconds at a tempo: beats times 60 / bpm. */
  function Seconds(ticks: int, bpm: int): real
    requires bpm != 0
  {
    (ticks as real / TicksPerBeat as real) * (60.0 / bpm as real)
  }

  function ToNote(e: Event, bpm: int): Note
    requires bpm != 0
  {
    Note(e.pitch, Seconds(e.start, bpm), Seconds(e.end, bpm), e.velocity)
  }

  function ToNotes(es: seq<Event>, bpm: int): seq<Note>
    requires bpm != 0
  {
    seq(|es|, i requires 0 <= i < |es| => ToNote(es[i], bpm))
  }

  /** Slots follow each other: two events either share their whole timing (two
      tones of one chord) or the earlier one ends before the later begins. */
  predicate SequentialEvents(es: seq<Event>) {
    forall i, j :: 0 <= i < j < |es| ==>
      (es[i].start == es[j].start && es[i].end == es[j].end) || es[i].end <= es[j].start
  }

  predicate SequentialNotes(ns: seq<Note>) {
    forall i, j :: 0 <= i < j < |ns| ==>
      (ns[i].start == ns[j].start && ns[i].end == ns[j].end) || ns[i].end <= ns[j].start
  }

  /** Converting ticks to seconds adds up: a cursor advanced by tick lengths
      is the cursor advanced by the corresponding numbers of seconds. */
  lemma SecondsAdditive(a: int, b: int, bpm: int)
    requires bpm != 0
    ensures Seconds(a + b, bpm) == Seconds(a, bpm) + Seconds(b, bpm)
  {
    var spb := 60.0 / bpm as real;
    calc {
      Seconds(a + b, bpm);
      ((a as real + b as real) / 12.0) * spb;
      (a as real / 12.0) * spb + (b as real / 12.0) * spb;
    }
  }

  /** At a positive tempo later ticks are later seconds, strictly so. */
  lemma SecondsMonotone(a: int, b: int, bpm: int)
    requires bpm > 0
    ensures a <= b ==> Seconds(a, bpm) <= Seconds(b, bpm)
    ensures a < b ==> Seconds(a, bpm) < Seconds(b, bpm)
    ensures a >= 0 ==> Seconds(a, bpm) >= 0.0
  {
    var spb := 60.0 / bpm as real;
    assert spb > 0.0;
    if a <= b {
      assert (b as real / 12.0) - (a as real / 12.0) >= 0.0;
      assert Seconds(b, bpm) - Seconds(a, bpm) == ((b as real / 12.0) - (a as real / 12.0)) * spb;
    }
    if a < b {
      assert (b as real / 12.0) - (a as real / 12.0) > 0.0;
      assert Seconds(b, bpm) - Seconds(a, bpm) == ((b as real / 12.0) - (a as real / 12.0)) * spb;
    }
  }

  /** Converting a track's ticks to seconds at a positive tempo keeps its
      slots sequential. */
  lemma ToNotesSequential(es: seq<Event>, bpm: int)
    requires bpm > 0
    requires SequentialEvents(es)
    ensures SequentialNotes(ToNotes(es, bpm))
  {
    var ns := ToNotes(es, bpm);
    forall i, j | 0 <= i < j < |ns|
      ensures (ns[i].start == ns[j].start && ns[i].end == ns[j].end) || ns[i].end <= ns[j].start
    {
      if !(es[i].start == es[j].start && es[i].end == es[j].end) {
        SecondsMonotone(es[i].end, es[j].start, bpm);
      }
    }
  }
}

=== FILE: piece.dfy ===
/** A whole piece: the generator's parameters, one run of the bar loop per
    instrument, and the timeline of tracks in seconds. */
module Piece {
  import opened Results
  import opened Draws
  import opened Notes
  import opened Theory
  import opened Schedule
  import opened Generator

  /** The generator's parameters. Note divisions are given by their table
      entries; chord types keep their names, so that an unrecognised name
      reaches the slot decision as in midi_generator.py. */
  datatype Config = Config(
    bpm: int,
    keyRoot: string,
    isMajor: bool,
    divisions: seq<Division>,
    chordTypes: seq<string>,
    instruments: seq<string>,
    octaveRanges: map<string, OctaveRange>,
    lengthBars: int,
    restProb: real)

  /** What stays fixed while the bars of one instrument are filled. */
  function InstrumentContext(cfg: Config, keyOffset: nat, root: int): (ctx: Context)
    requires keyOffset < 12 && root % 12 == keyOffset
    ensures ValidContext(ctx)
    ensures ctx.base == BaseScale(cfg.isMajor) && ctx.keyOffset == keyOffset && ctx.root == root
  {
    Context(cfg.restProb, BaseScale(cfg.isMajor), ChordTypesOf(cfg.chordTypes), cfg.divisions, keyOffset, root)
  }

  /** A register whose bounds admit no octave. */
  predicate EmptyRange(range: OctaveRange) {
    range.min > range.max
  }

  /** Every listed instrument has a register that admits some octave. */
  predicate AllRegistersOpen(cfg: Config, instruments: seq<string>) {
    forall i :: 0 <= i < |instruments| ==> !EmptyRange(OctaveRangeFor(cfg.octaveRanges, instruments[i]))
  }

  /** The bars can be filled whatever the draws: there are none, or some
      division exists and every slot either can draw a chord type or rests. */
  predicate Fillable(cfg: Config) {
    cfg.lengthBars <= 0 || (|cfg.divisions| > 0 && (|cfg.chordTypes| > 0 || cfg.restProb > 0.99))
  }

  /** One instrument's run: its octave and root, the divisions accepted in
      each bar, the decisions of their slots, the notes in ticks, and the
      cursor it leaves behind. */
  datatype Run = Run(octave: int, root: int, bars: seq<seq<Division>>, decisions: seq<Decision>, events: seq<Event>, next: Cursor)

  /** The body of the instrument loop: look up the register, draw an octave
      in it, and fill the bars from time zero. */
  function RunInstrument(cfg: Config, keyOffset: nat, instrument: string, rng: Rng, pos: nat): (r: Result<Run>)
    requires keyOffset < 12
    ensures var range := OctaveRangeFor(cfg.octaveRanges, instrument);
      && (r == Err(EmptyOctaveRange(instrument)) <==> EmptyRange(range))
      && (!EmptyRange(range) && Fillable(cfg) ==> r.Ok?)
      && (!EmptyRange(range) && cfg.lengthBars > 0 && |cfg.divisions| == 0 ==> r == Err(EmptyDivisions))
      && (r.Ok? ==> range.min <= r.value.octave <= range.max)
    ensures instrument !in cfg.octaveRanges ==>
      r != Err(EmptyOctaveRange(instrument)) && (r.Ok? ==> 0 <= r.value.octave <= 1)
    ensures r.Ok? ==> r.value.root == RootPitch(r.value.octave, keyOffset)
    ensures r.Ok? ==> |r.value.bars| == Max0(cfg.lengthBars)
    ensures r.Ok? ==> r.value.next.time == BarTicks * Max0(cfg.lengthBars) && r.value.next.pos > pos
    ensures r.Ok? && cfg.restProb > 0.99 ==> r.value.events == []
  {
    var range := OctaveRangeFor(cfg.octaveRanges, instrument);
    if EmptyRange(range) then
      Err(EmptyOctaveRange(instrument))
    else
      var octave := RandInt(rng, pos, range.min, range.max);
      var root := RootPitch(octave, keyOffset);
      var filled :- FillBars(Cursor(0, pos + 1), cfg.lengthBars, InstrumentContext(cfg, keyOffset, root), rng);
      RunTicksIsProduct(cfg.lengthBars);
      Ok(Run(octave, root, filled.bars, filled.decisions, filled.events, filled.next))
  }

  /** Every bar of a run spends its four beats exactly with divisions of the
      vocabulary, and the run's notes are laid out from time zero to the end
      of its last bar, in the key, played as the decisions of the slots of
      the bars' divisions one after another. */
  lemma RunInstrumentShape(cfg: Config, keyOffset: nat, instrument: string, rng: Rng, pos: nat, run: Run)
    requires keyOffset < 12 && RunInstrument(cfg, keyOffset, instrument, rng, pos) == Ok(run)
    ensures forall b :: 0 <= b < |run.bars| ==> Consumes(run.bars[b], BarTicks)
    ensures Laid(run.events, 0, BarTicks * Max0(cfg.lengthBars), InstrumentContext(cfg, keyOffset, run.root))
    ensures forall d :: d in Flatten(run.bars) ==> d in cfg.divisions
    ensures PlayedIn(run.events, Spans(Flatten(run.bars), 0), run.decisions, InstrumentContext(cfg, keyOffset, run.root))
  {
    var ctx := InstrumentContext(cfg, keyOffset, run.root);
    var filled := FillBars(Cursor(0, pos + 1), cfg.lengthBars, ctx, rng).value;
    assert run.bars == filled.bars && run.decisions == filled.decisions && run.events == filled.events;
    FillBarsConsume(Cursor(0, pos + 1), cfg.lengthBars, ctx, rng, filled);
    RunTicksIsProduct(cfg.lengthBars);
  }

  /** The instrument loop: one track per instrument, in order, each run
      reading the draws after the previous one's. */
  function GenerateTracks(cfg: Config, keyOffset: nat, instruments: seq<string>, rng: Rng, pos: nat): (r: Result<seq<Track>>)
    requires keyOffset < 12 && cfg.bpm != 0
    ensures r.Ok? ==> |r.value| == |instruments|
    ensures r.Ok? ==> forall i :: 0 <= i < |instruments| ==> r.value[i].instrument == instruments[i]
    ensures !AllRegistersOpen(cfg, instruments) ==> r.Err?
    ensures AllRegistersOpen(cfg, instruments) && Fillable(cfg) ==> r.Ok?
    ensures r.Ok? && cfg.restProb > 0.99 ==> forall i :: 0 <= i < |r.value| ==> r.value[i].notes == []
    decreases |instruments|
  {
    if |instruments| == 0 then
      Ok([])
    else
      var run :- RunInstrument(cfg, keyOffset, instruments[0], rng, pos);
      var rest :- GenerateTracks(cfg, keyOffset, instruments[1..], rng, run.next.pos);
      Ok([Track(instruments[0], ToNotes(run.events, cfg.bpm))] + rest)
  }

  /** generate_perfect_midi without the file: the timeline, or the first
      failure. A zero tempo fails when the timeline is created, before the
      key is looked up. */
  function Generate(cfg: Config, rng: Rng): (r: Result<Timeline>)
    ensures cfg.bpm == 0 ==> r == Err(ZeroTempo)
    ensures cfg.bpm != 0 && cfg.keyRoot !in KeyNames ==> r == Err(UnknownKey(cfg.keyRoot))
    ensures r.Ok? ==> r.value.bpm == cfg.bpm && |r.value.tracks| == |cfg.instruments|
    ensures r.Ok? ==> forall i :: 0 <= i < |cfg.instruments| ==> r.value.tracks[i].instrument == cfg.instruments[i]
    ensures cfg.bpm != 0 && cfg.keyRoot in KeyNames && !AllRegistersOpen(cfg, cfg.instruments) ==> r.Err?
    ensures cfg.bpm != 0 && cfg.keyRoot in KeyNames && AllRegistersOpen(cfg, cfg.instruments) && Fillable(cfg) ==> r.Ok?
    ensures r.Ok? && cfg.restProb > 0.99 ==> forall i :: 0 <= i < |r.value.tracks| ==> r.value.tracks[i].notes == []
  {
    if cfg.bpm == 0 then
      Err(ZeroTempo)
    else
      match KeyOffset(cfg.keyRoot)
      case None => Err(UnknownKey(cfg.keyRoot))
      case Some(keyOffset) =>
        var tracks :- GenerateTracks(cfg, keyOffset, cfg.instruments, rng, 0);
        Ok(Timeline(cfg.bpm, tracks))
  }

  /** A track as the generator promises it: every note lies between zero
      and the end of the piece and lasts a positive time, has the generated
      velocity and a pitch of the key, and the slots follow each other. */
  predicate InTimeAndKey(ns: seq<Note>, total: real, keyOffset: nat, base: seq<int>) {
    && (forall i :: 0 <= i < |ns| ==>
          && 0.0 <= ns[i].start < ns[i].end <= total
          && ns[i].velocity == GeneratedVelocity
          && InKey(ns[i].pitch, keyOffset, base))
    && SequentialNotes(ns)
  }

  /** Notes laid out in ticks from zero stay so in seconds. */
  lemma LaidInSeconds(es: seq<Event>, hi: nat, ctx: Context, bpm: int)
    requires bpm > 0 && Laid(es, 0, hi, ctx)
    ensures InTimeAndKey(ToNotes(es, bpm), Seconds(hi, bpm), ctx.keyOffset, ctx.base)
  {
    var ns := ToNotes(es, bpm);
    forall i | 0 <= i < |ns|
      ensures 0.0 <= ns[i].start < ns[i].end <= Seconds(hi, bpm)
    {
      SecondsMonotone(es[i].start, es[i].end, bpm);
      SecondsMonotone(es[i].end, hi, bpm);
    }
    ToNotesSequential(es, bpm);
  }

  /** The end of bar `bars` in seconds: four beats a bar at 60 / bpm seconds
      a beat. */
  lemma BarsInSeconds(bars: nat, bpm: int)
    requires bpm > 0
    ensures Seconds(BarTicks * bars, bpm) == (4 * bars) as real * (60.0 / bpm as real)
  {
  }

  /** Every generated track lies within the bars and in the key. */
  lemma {:induction false} GenerateTracksInKey(cfg: Config, keyOffset: nat, instruments: seq<string>, rng: Rng, pos: nat, tracks: seq<Track>)
    requires keyOffset < 12 && cfg.bpm > 0
    requires GenerateTracks(cfg, keyOffset, instruments, rng, pos) == Ok(tracks)
    ensures forall i :: 0 <= i < |tracks| ==>
      InTimeAndKey(tracks[i].notes, Seconds(BarTicks * Max0(cfg.lengthBars), cfg.bpm), keyOffset, BaseScale(cfg.isMajor))
    decreases |instruments|
  {
    if |instruments| > 0 {
      var run := RunInstrument(cfg, keyOffset, instruments[0], rng, pos).value;
      var rest := GenerateTracks(cfg, keyOffset, instruments[1..], rng, run.next.pos).value;
      assert tracks == [Track(instruments[0], ToNotes(run.events, cfg.bpm))] + rest;
      RunInstrumentShape(cfg, keyOffset, instruments[0], rng, pos, run);
      LaidInSeconds(run.events, BarTicks * Max0(cfg.lengthBars), InstrumentContext(cfg, keyOffset, run.root), cfg.bpm);
      GenerateTracksInKey(cfg, keyOffset, instruments[1..], rng, run.next.pos, rest);
      forall i | 0 <= i < |tracks|
        ensures InTimeAndKey(tracks[i].notes, Seconds(BarTicks * Max0(cfg.lengthBars), cfg.bpm), keyOffset, BaseScale(cfg.isMajor))
      {
        if i > 0 {
          assert tracks[i] == rest[i - 1];
        }
      }
    }
  }

  /** A track as the bar loop plays it: for some drawn register root, the
      notes in seconds of length_bars bars that each spend four beats with
      divisions of the vocabulary, played as decisions generate_note can
      take over the slots of the bars' divisions, one after another from
      time zero. */
  ghost predicate PlayedTrack(ns: seq<Note>, cfg: Config, keyOffset: nat)
    requires keyOffset < 12 && cfg.bpm != 0
  {
    exists root: int, bars: seq<seq<Division>>, decs: seq<Decision>, es: seq<Event> ::
      && root % 12 == keyOffset
      && |bars| == Max0(cfg.lengthBars)
      && (forall b :: 0 <= b < |bars| ==> Consumes(bars[b], BarTicks))
      && (forall d :: d in Flatten(bars) ==> d in cfg.divisions)
      && ns == ToNotes(es, cfg.bpm)
      && PlayedIn(es, Spans(Flatten(bars), 0), decs, InstrumentContext(cfg, keyOffset, root))
  }

  /** Every generated track is played bar by bar, slot by slot. */
  lemma {:induction false} GenerateTracksPlayed(cfg: Config, keyOffset: nat, instruments: seq<string>, rng: Rng, pos: nat, tracks: seq<Track>)
    requires keyOffset < 12 && cfg.bpm != 0
    requires GenerateTracks(cfg, keyOffset, instruments, rng, pos) == Ok(tracks)
    ensures forall i :: 0 <= i < |tracks| ==> PlayedTrack(tracks[i].notes, cfg, keyOffset)
    decreases |instruments|
  {
    if |instruments| > 0 {
      var run := RunInstrument(cfg, keyOffset, instruments[0], rng, pos).value;
      var rest := GenerateTracks(cfg, keyOffset, instruments[1..], rng, run.next.pos).value;
      assert tracks == [Track(instruments[0], ToNotes(run.events, cfg.bpm))] + rest;
      RunInstrumentShape(cfg, keyOffset, instruments[0], rng, pos, run);
      assert PlayedTrack(tracks[0].notes, cfg, keyOffset);
      GenerateTracksPlayed(cfg, keyOffset, instruments[1..], rng, run.next.pos, rest);
      forall i | 0 <= i < |tracks|
        ensures PlayedTrack(tracks[i].notes, cfg, keyOffset)
      {
        if i > 0 {
          assert tracks[i] == rest[i - 1];
        }
      }
    }
  }

  /** The promise of the generator: at a positive tempo every note of every
      track is a note of the key, within the piece's length_bars bars (which
      end at 4 * length_bars * 60 / bpm seconds, by BarsInSeconds), and the
      slots of a track follow each other. */
  lemma GenerateInKey(cfg: Config, rng: Rng, timeline: Timeline)
    requires cfg.bpm > 0 && Generate(cfg, rng) == Ok(timeline)
    ensures cfg.keyRoot in KeyNames
    ensures forall i :: 0 <= i < |timeline.tracks| ==>
      InTimeAndKey(timeline.tracks[i].notes, Seconds(BarTicks * Max0(cfg.lengthBars), cfg.bpm),
                   KeyOffset(cfg.keyRoot).value, BaseScale(cfg.isMajor))
    ensures forall i :: 0 <= i < |timeline.tracks| ==> PlayedTrack(timeline.tracks[i].notes, cfg, KeyOffset(cfg.keyRoot).value)
  {
    var keyOffset := KeyOffset(cfg.keyRoot).value;
    var tracks := GenerateTracks(cfg, keyOffset, cfg.instruments, rng, 0).value;
    assert timeline.tracks == tracks;
    GenerateTracksInKey(cfg, keyOffset, cfg.instruments, rng, 0, tracks);
    GenerateTracksPlayed(cfg, keyOffset, cfg.instruments, rng, 0, tracks);
  }

  /** The generation, spelled out: the key's offset and the instrument loop
      run from the first draw. */
  lemma GenerateStep(cfg: Config, rng: Rng, timeline: Timeline) returns (keyOffset: nat)
    requires Generate(cfg, rng) == Ok(timeline)
    ensures cfg.bpm != 0 && KeyOffset(cfg.keyRoot) == Some(keyOffset) && keyOffset < 12
    ensures GenerateTracks(cfg, keyOffset, cfg.instruments, rng, 0) == Ok(timeline.tracks)
  {
    keyOffset := KeyOffset(cfg.keyRoot).value;
  }

  /** One round of the instrument loop, spelled out. */
  lemma TracksStep(cfg: Config, keyOffset: nat, instruments: seq<string>, rng: Rng, pos: nat, tracks: seq<Track>)
    returns (run: Run, rest: seq<Track>)
    requires keyOffset < 12 && cfg.bpm != 0 && |instruments| > 0
    requires GenerateTracks(cfg, keyOffset, instruments, rng, pos) == Ok(tracks)
    ensures RunInstrument(cfg, keyOffset, instruments[0], rng, pos) == Ok(run)
    ensures GenerateTracks(cfg, keyOffset, instruments[1..], rng, run.next.pos) == Ok(rest)
    ensures tracks == [Track(instruments[0], ToNotes(run.events, cfg.bpm))] + rest
  {
    run := RunInstrument(cfg, keyOffset, instruments[0], rng, pos).value;
    rest := GenerateTracks(cfg, keyOffset, instruments[1..], rng, run.next.pos).value;
  }

  /** An instrument's run, spelled out: the bars filled from time zero and
      the draw after the octave's. */
  lemma RunStep(cfg: Config, keyOffset: nat, instrument: string, rng: Rng, pos: nat, run: Run)
    requires keyOffset < 12 && RunInstrument(cfg, keyOffset, instrument, rng, pos) == Ok(run)
    ensures run.root % 12 == keyOffset
    ensures FillBars(Cursor(0, pos + 1), cfg.lengthBars, InstrumentContext(cfg, keyOffset, run.root), rng)
      == Ok(Filled(run.bars, run.decisions, run.events, run.next))
  {
  }

  /** At 120 bpm a beat lasts half a second. */
  lemma BeatAt120(beats: nat)
    ensures Seconds(12 * beats, 120) == 0.5 * beats as real
  {
    assert (12 * beats) as real / 12.0 == beats as real;
  }

  /** Four notes a beat long, one a beat from time zero, last half a second
      each at 120 bpm. */
  lemma QuartersAt120(es: seq<Event>)
    requires OnTheBeats(es, 0, 48)
    ensures forall i :: 0 <= i < 4 ==>
      ToNotes(es, 120)[i].start == 0.5 * i as real && ToNotes(es, 120)[i].end == 0.5 * i as real + 0.5
  {
    forall i | 0 <= i < 4
      ensures ToNotes(es, 120)[i].start == 0.5 * i as real && ToNotes(es, 120)[i].end == 0.5 * i as real + 0.5
    {
      BeatAt120(i);
      BeatAt120(i + 1);
    }
  }

  /** One bar of quarter notes in C major at 120 bpm, never resting, playing
      single notes on one instrument with the default register. */
  const QuarterConfig: Config := Config(120, "C", true, [Quarter], ["single"], ["piano"], map[], 1, 0.0)

  /** Whatever the draws, that piece is four notes starting at 0, 0.5, 1.0
      and 1.5 seconds, each half a second long. */
  lemma QuarterNotesExample(rng: Rng, timeline: Timeline)
    requires Generate(QuarterConfig, rng) == Ok(timeline)
    ensures |timeline.tracks| == 1 && |timeline.tracks[0].notes| == 4
    ensures forall i :: 0 <= i < 4 ==>
      timeline.tracks[0].notes[i].start == 0.5 * i as real && timeline.tracks[0].notes[i].end == 0.5 * i as real + 0.5
  {
    var cfg := QuarterConfig;
    var keyOffset := GenerateStep(cfg, rng, timeline);
    var run, rest := TracksStep(cfg, keyOffset, cfg.instruments, rng, 0, timeline.tracks);
    assert |rest| == 0;
    RunStep(cfg, keyOffset, "piano", rng, 0, run);
    var ctx := InstrumentContext(cfg, keyOffset, run.root);
    assert OnlySingleQuarters(ctx);
    QuarterFill(1, ctx, rng, Filled(run.bars, run.decisions, run.events, run.next));
    assert timeline.tracks[0].notes == ToNotes(run.events, 120);
    QuartersAt120(run.events);
  }
}

=== FILE: pipeline.dfy ===
/** A sample as it is rendered: the generated timeline, then the humanizer
    run on it at the same tempo with its default settings. */
module Pipeline {
  import opened Results
  import opened Draws
  import opened Notes
  import opened Theory
  import opened Schedule
  import opened Generator
  import opened Piece
  import opened Humanizer

  /** The perfect timeline and its humanized copy, each with its own draws. */
  function Sample(cfg: Config, rng: Rng, units: UnitStream, noise: Rng): (r: Result<Timeline>)
    ensures cfg.bpm == 0 ==> r == Err(ZeroTempo)
    ensures r.Ok? ==> r.value.bpm == cfg.bpm && |r.value.tracks| == |cfg.instruments|
    ensures r.Ok? <==> Generate(cfg, rng).Ok?
  {
    var perfect :- Generate(cfg, rng);
    Humanize(perfect, cfg.bpm, DefaultJitterMs, DefaultVelocityNoise, units, noise)
  }

  /** Every note of a rendered sample is still a note of the key, lies
      within 30 ms of the piece's span, and has a velocity within 20 of the
      generated one. */
  lemma SampleInKey(cfg: Config, rng: Rng, units: UnitStream, noise: Rng, out: Timeline)
    requires cfg.bpm > 0 && Sample(cfg, rng, units, noise) == Ok(out)
    ensures cfg.keyRoot in KeyNames && |out.tracks| == |cfg.instruments|
    ensures forall i, k :: 0 <= i < |out.tracks| && 0 <= k < |out.tracks[i].notes| ==>
      && InKey(out.tracks[i].notes[k].pitch, KeyOffset(cfg.keyRoot).value, BaseScale(cfg.isMajor))
      && 0.0 <= out.tracks[i].notes[k].start <= Seconds(BarTicks * Max0(cfg.lengthBars), cfg.bpm) + 0.03
      && GeneratedVelocity - DefaultVelocityNoise <= out.tracks[i].notes[k].velocity <= GeneratedVelocity + DefaultVelocityNoise
  {
    var perfect := Generate(cfg, rng).value;
    var total := Seconds(BarTicks * Max0(cfg.lengthBars), cfg.bpm);
    var keyOffset := KeyOffset(cfg.keyRoot).value;
    GenerateInKey(cfg, rng, perfect);
    HumanizeBounded(perfect, cfg.bpm, DefaultJitterMs, DefaultVelocityNoise, units, noise, out);
    forall i, k | 0 <= i < |out.tracks| && 0 <= k < |out.tracks[i].notes|
      ensures InKey(out.tracks[i].notes[k].pitch, keyOffset, BaseScale(cfg.isMajor))
      ensures 0.0 <= out.tracks[i].notes[k].start <= total + 0.03
      ensures GeneratedVelocity - DefaultVelocityNoise <= out.tracks[i].notes[k].velocity <= GeneratedVelocity + DefaultVelocityNoise
    {
      assert TrackHumanized(perfect.tracks[i], out.tracks[i], DefaultJitterMs, DefaultVelocityNoise);
      assert InTimeAndKey(perfect.tracks[i].notes, total, keyOffset, BaseScale(cfg.isMajor));
      assert Humanized(perfect.tracks[i].notes[k], out.tracks[i].notes[k], DefaultJitterMs, DefaultVelocityNoise);
    }
  }
}

=== FILE: results.dfy ===
/** Outcome types shared by the generator and the humanizer. */
module Results {

  /** A value that may be absent, as a dictionary lookup that can miss. */
  datatype Option<+T> = None | Some(value: T)

  /** The failures of a generation or humanization call. Each one is an
      exception midi_generator.py raises at the point named in its comment. */
  datatype Error =
    | UnknownKey(key: string)               // KeyError from the key table lookup
    | ZeroTempo                             // ZeroDivisionError computing 60 / bpm
    | EmptyOctaveRange(instrument: string)  // ValueError from randint(min, max) with min > max
    | EmptyDivisions                        // IndexError from choice over no note divisions
    | EmptyChordTypes                       // IndexError from choice over no chord types
    | NegativeVelocityNoise                 // ValueError from randint(-v, v) with v < 0

  /** A value or the failure that aborted the call; usable with `:-`. */
  datatype Result<+T> = Ok(value: T) | Err(error: Error) {

    predicate IsFailure() {
      Err?
    }

    function PropagateFailure<U>(): Result<U>
      requires Err?
    {
      Err(error)
    }

    function Extract(): T
      requires Ok?
    {
      value
    }
  }
}

=== FILE: schedule.dfy ===
/** The note-division table and the bar budget: which lengths exist, which
    of them fit what is left of a bar, and how a bar's budget is spent. */
module Schedule {
  import opened Results
  import opened Notes

  /** The names of the division table. */
  datatype Division = Whole | Half | Quarter | Eighth | Sixteenth | QuarterTriplet | EighthTriplet

  /** A 4/4 bar: four beats. */
  const BarBeats: nat := 4
  const BarTicks: nat := BarBeats * TicksPerBeat

  function Name(d: Division): string {
    match d
    case Whole => "whole"
    case Half => "half"
    case Quarter => "quarter"
    case Eighth => "eighth"
    case Sixteenth => "sixteenth"
    case QuarterTriplet => "quarter_triplet"
    case EighthTriplet => "eighth_triplet"
  }

  /** The division table lookup by name; a name outside it finds nothing. */
  function ParseDivision(name: string): (r: Option<Division>)
    ensures r.Some? ==> Name(r.value) == name
    ensures r.None? ==> forall d: Division :: Name(d) != name
  {
    if name == "whole" then Some(Whole)
    else if name == "half" then Some(Half)
    else if name == "quarter" then Some(Quarter)
    else if name == "eighth" then Some(Eighth)
    else if name == "sixteenth" then Some(Sixteenth)
    else if name == "quarter_triplet" then Some(QuarterTriplet)
    else if name == "eighth_triplet" then Some(EighthTriplet)
    else None
  }

  /** Every division is found under its own name. */
  lemma ParseName(d: Division)
    ensures ParseDivision(Name(d)) == Some(d)
  {
  }

  /** The table's beat lengths. A triplet's entry is the span of the whole
      group of three. */
  function Beats(d: Division): real {
    match d
    case Whole => 4.0
    case Half => 2.0
    case Quarter => 1.0
    case Eighth => 0.5
    case Sixteenth => 0.25
    case QuarterTriplet => 2.0
    case EighthTriplet => 1.0
  }

  /** The triplet test of the scheduler: the two divisions it splits in three. */
  predicate IsTriplet(d: Division) {
    d == QuarterTriplet || d == EighthTriplet
  }

  /** The scheduler recognises triplets by name: exactly the two names it
      tests. */
  lemma TripletByName(d: Division)
    ensures IsTriplet(d) <==> Name(d) in {"quarter_triplet", "eighth_triplet"}
  {
  }

  /** The beat length in ticks; never zero, so every slot moves time on. */
  function Length(d: Division): (n: nat)
    ensures 0 < n
  {
    match d
    case Whole => 48
    case Half => 24
    case Quarter => 12
    case Eighth => 6
    case Sixteenth => 3
    case QuarterTriplet => 24
    case EighthTriplet => 12
  }

  /** The tick length is exactly the table's beats, a whole number of ticks
      that divides the bar and splits evenly in three. */
  lemma LengthExact(d: Division)
    ensures Length(d) as real == Beats(d) * TicksPerBeat as real
    ensures BarTicks % Length(d) == 0 && Length(d) % 3 == 0
  {
  }

  /** The length of each note a slot of this division plays: a third of the
      span for a triplet, the whole span otherwise. */
  function SubLength(d: Division): (n: nat)
    ensures 0 < n
    ensures IsTriplet(d) ==> 3 * n == Length(d)
    ensures !IsTriplet(d) ==> n == Length(d)
  {
    if IsTriplet(d) then Length(d) / 3 else Length(d)
  }

  /** The beat lengths nest: a shorter division always measures a longer one
      exactly, because each is three ticks times a power of two. */
  lemma LengthsNest(a: Division, b: Division)
    requires Length(a) <= Length(b)
    ensures Length(b) % Length(a) == 0
  {
  }

  /** The divisions of the vocabulary that fit in what is left of the bar, in
      vocabulary order and with their repetitions. */
  function Fitting(vocab: seq<Division>, ticksLeft: nat): (r: seq<Division>)
    ensures forall d {:trigger d in r} :: d in r <==> d in vocab && Length(d) <= ticksLeft
  {
    if |vocab| == 0 then []
    else
      var rest := Fitting(vocab[1..], ticksLeft);
      assert vocab == [vocab[0]] + vocab[1..];
      if Length(vocab[0]) <= ticksLeft then [vocab[0]] + rest else rest
  }

  /** The fitting divisions keep their repetitions in the vocabulary, so a
      uniform draw among them weighs each as often as the vocabulary lists it. */
  lemma {:induction false} FittingCounts(vocab: seq<Division>, ticksLeft: nat)
    ensures forall d ::
      multiset(Fitting(vocab, ticksLeft))[d] == (if Length(d) <= ticksLeft then multiset(vocab)[d] else 0)
    decreases |vocab|
  {
    if |vocab| > 0 {
      FittingCounts(vocab[1..], ticksLeft);
      assert vocab == [vocab[0]] + vocab[1..];
    }
  }

  /** A shortest division of a non-empty vocabulary. */
  function Shortest(vocab: seq<Division>): (m: Division)
    requires |vocab| > 0
    ensures m in vocab
    ensures forall d :: d in vocab ==> Length(m) <= Length(d)
  {
    if |vocab| == 1 then vocab[0]
    else
      var m := Shortest(vocab[1..]);
      assert forall d :: d in vocab ==> d == vocab[0] || d in vocab[1..];
      if Length(vocab[0]) <= Length(m) then vocab[0] else m
  }

  /** `ticks` is a whole number of `unit`s, counted off one unit at a time. */
  predicate WholeUnits(ticks: nat, unit: nat)
    decreases ticks
  {
    if unit == 0 || ticks < unit then ticks == 0 else WholeUnits(ticks - unit, unit)
  }

  /** Counting off whole lengths of a division is divisibility by that
      length. */
  lemma {:induction false} WholeUnitsMod(ticks: nat, d: Division)
    ensures WholeUnits(ticks, Length(d)) <==> ticks % Length(d) == 0
    decreases ticks
  {
    var unit := Length(d);
    if ticks >= unit {
      WholeUnitsMod(ticks - unit, d);
      if unit == 3 {
        assert (ticks - 3) % 3 == ticks % 3;
      } else if unit == 6 {
        assert (ticks - 6) % 6 == ticks % 6;
      } else if unit == 12 {
        assert (ticks - 12) % 12 == ticks % 12;
      } else if unit == 24 {
        assert (ticks - 24) % 24 == ticks % 24;
      } else {
        assert (ticks - 48) % 48 == ticks % 48;
      }
    }
  }

  /** What is left of a bar is measured by a vocabulary when it is a whole
      number of the vocabulary's shortest length. */
  predicate Measured(vocab: seq<Division>, ticksLeft: nat) {
    |vocab| > 0 ==> WholeUnits(ticksLeft, Length(Shortest(vocab)))
  }

  /** While some budget is left and it is a multiple of the shortest length,
      the shortest division fits, so some division always fits. */
  lemma SmallestAlwaysFits(vocab: seq<Division>, ticksLeft: nat)
    requires |vocab| > 0 && 0 < ticksLeft && Measured(vocab, ticksLeft)
    ensures Shortest(vocab) in Fitting(vocab, ticksLeft)
  {
  }

  /** Spending a fitting division keeps the budget a multiple of the shortest
      length, starting from the full bar. */
  lemma BudgetStaysMeasured(vocab: seq<Division>, ticksLeft: nat, d: Division)
    requires d in vocab && Length(d) <= ticksLeft && Measured(vocab, ticksLeft)
    ensures Measured(vocab, ticksLeft - Length(d))
  {
    var unit := Length(Shortest(vocab));
    WholeUnitsMod(ticksLeft, Shortest(vocab));
    WholeUnitsMod(ticksLeft - Length(d), Shortest(vocab));
    LengthsNest(Shortest(vocab), d);
    BudgetModulus(ticksLeft, Length(d), unit);
  }

  /** A fresh bar's budget is a multiple of every table length, so it is
      measured by whatever vocabulary is drawn from. */
  lemma FullBarMeasured(vocab: seq<Division>)
    ensures Measured(vocab, BarTicks)
  {
    if |vocab| > 0 {
      LengthExact(Shortest(vocab));
      WholeUnitsMod(BarTicks, Shortest(vocab));
    }
  }

  /** Taking a multiple of a table length from a multiple of it leaves a
      multiple of it. */
  lemma BudgetModulus(a: nat, b: nat, m: nat)
    requires m == 3 || m == 6 || m == 12 || m == 24 || m == 48
    requires a % m == 0 && b % m == 0 && b <= a
    ensures (a - b) % m == 0
  {
    if m == 3 {
      MultiplesOf3(a, b);
    } else if m == 6 {
      MultiplesOf6(a, b);
    } else if m == 12 {
      MultiplesOf12(a, b);
    } else if m == 24 {
      MultiplesOf24(a, b);
    } else {
      MultiplesOf48(a, b);
    }
  }

  // One lemma per table length: with the divisor a literal, the solver
  // settles each by linear arithmetic alone.

  lemma MultiplesOf3(a: nat, b: nat)
    requires a % 3 == 0 && b % 3 == 0 && b <= a
    ensures (a - b) % 3 == 0
  {
  }

  lemma MultiplesOf6(a: nat, b: nat)
    requires a % 6 == 0 && b % 6 == 0 && b <= a
    ensures (a - b) % 6 == 0
  {
  }

  lemma MultiplesOf12(a: nat, b: nat)
    requires a % 12 == 0 && b % 12 == 0 && b <= a
    ensures (a - b) % 12 == 0
  {
  }

  lemma MultiplesOf24(a: nat, b: nat)
    requires a % 24 == 0 && b % 24 == 0 && b <= a
    ensures (a - b) % 24 == 0
  {
  }

  lemma MultiplesOf48(a: nat, b: nat)
    requires a % 48 == 0 && b % 48 == 0 && b <= a
    ensures (a - b) % 48 == 0
  {
  }

  /** The accepted divisions of one bar, in order, each fitting what was left
      when it was drawn, together spending the budget exactly. */
  predicate Consumes(divs: seq<Division>, budget: nat)
    decreases |divs|
  {
    if |divs| == 0 then budget == 0
    else Length(divs[0]) <= budget && Consumes(divs[1..], budget - Length(divs[0]))
  }

  /** Spending one fitting division and then the rest of the budget spends
      the whole budget. */
  lemma ConsumesCons(d: Division, rest: seq<Division>, budget: nat)
    requires Length(d) <= budget && Consumes(rest, budget - Length(d))
    ensures Consumes([d] + rest, budget)
  {
    assert ([d] + rest)[1..] == rest;
  }

  function SumLengths(divs: seq<Division>): nat
    decreases |divs|
  {
    if |divs| == 0 then 0 else Length(divs[0]) + SumLengths(divs[1..])
  }

  function SumBeats(divs: seq<Division>): real
    decreases |divs|
  {
    if |divs| == 0 then 0.0 else Beats(divs[0]) + SumBeats(divs[1..])
  }

  /** Spending a budget in order, each choice fitting, is the same as choosing
      lengths that add up to the budget: every length is positive, so no prefix
      of such a sequence can overrun. */
  lemma {:induction false} ConsumesIffSum(divs: seq<Division>, budget: nat)
    ensures Consumes(divs, budget) <==> SumLengths(divs) == budget
    decreases |divs|
  {
    if |divs| > 0 && Length(divs[0]) <= budget {
      ConsumesIffSum(divs[1..], budget - Length(divs[0]));
    }
  }

  /** Tick lengths and the table's beats count the same span. */
  lemma {:induction false} SumTicksIsSumBeats(divs: seq<Division>)
    ensures SumLengths(divs) as real == SumBeats(divs) * TicksPerBeat as real
    decreases |divs|
  {
    if |divs| > 0 {
      SumTicksIsSumBeats(divs[1..]);
    }
  }

  /** A bar's accepted divisions add up to exactly four beats of the table. */
  lemma BarIsFourBeats(divs: seq<Division>)
    requires Consumes(divs, BarTicks)
    ensures SumBeats(divs) == BarBeats as real
  {
    ConsumesIffSum(divs, BarTicks);
    SumTicksIsSumBeats(divs);
  }

  /** The stretch of time one note decision covers, in ticks. */
  datatype Span = Span(start: nat, end: nat)

  /** The note decisions of one slot placed at `from`: one per third for a
      triplet, one over the division's whole length otherwise. */
  function SlotSpans(d: Division, from: nat): seq<Span> {
    var sub := SubLength(d);
    if IsTriplet(d) then [Span(from, from + sub), Span(from + sub, from + 2 * sub), Span(from + 2 * sub, from + 3 * sub)]
    else [Span(from, from + sub)]
  }

  /** The head and the tail of a sequence followed by another. */
  lemma HeadTail<T>(a: seq<T>, b: seq<T>)
    requires |a| > 0
    ensures (a + b)[0] == a[0] && (a + b)[1..] == a[1..] + b
  {
  }

  lemma AppendAssoc<T>(a: seq<T>, b: seq<T>, c: seq<T>)
    ensures a + (b + c) == (a + b) + c
  {
  }

  /** The note decisions of divisions placed one after the other from `from`. */
  function Spans(divs: seq<Division>, from: nat): seq<Span>
    decreases |divs|
  {
    if |divs| == 0 then [] else SlotSpans(divs[0], from) + Spans(divs[1..], from + Length(divs[0]))
  }

  /** The spans of a sequence of divisions tile the time they take: each has
      a positive length, the first starts at `from`, each ends where the next
      starts, and the last ends the divisions' total length later. */
  predicate Tiles(spans: seq<Span>, from: nat, to: nat) {
    && (|spans| == 0 ==> from == to)
    && (|spans| > 0 ==> spans[0].start == from && spans[|spans| - 1].end == to)
    && (forall i :: 0 <= i < |spans| ==> spans[i].start < spans[i].end)
    && (forall i :: 0 <= i < |spans| - 1 ==> spans[i].end == spans[i + 1].start)
  }

  /** Tilings of two adjacent stretches make one tiling. */
  lemma TilesConcat(a: seq<Span>, b: seq<Span>, lo: nat, mid: nat, hi: nat)
    requires Tiles(a, lo, mid) && Tiles(b, mid, hi)
    ensures Tiles(a + b, lo, hi)
  {
    var ab := a + b;
    forall i | 0 <= i < |ab|
      ensures ab[i].start < ab[i].end
    {
      if i < |a| {
        assert ab[i] == a[i];
      } else {
        assert ab[i] == b[i - |a|];
      }
    }
    forall i | 0 <= i < |ab| - 1
      ensures ab[i].end == ab[i + 1].start
    {
      if i + 1 < |a| {
        assert ab[i] == a[i] && ab[i + 1] == a[i + 1];
      } else if i >= |a| {
        assert ab[i] == b[i - |a|] && ab[i + 1] == b[i + 1 - |a|];
      } else {
        assert ab[i] == a[i] && ab[i + 1] == b[0];
      }
    }
  }

  /** The note decisions of a slot tile the slot. */
  lemma SlotSpansTile(d: Division, from: nat)
    ensures Tiles(SlotSpans(d, from), from, from + Length(d))
  {
  }

  /** The note decisions of divisions played one after the other tile the
      time the divisions take. */
  lemma {:induction false} SpansTile(divs: seq<Division>, from: nat)
    ensures Tiles(Spans(divs, from), from, from + SumLengths(divs))
    decreases |divs|
  {
    if |divs| > 0 {
      var mid := from + Length(divs[0]);
      var to := mid + SumLengths(divs[1..]);
      assert to == from + SumLengths(divs);
      assert Spans(divs, from) == SlotSpans(divs[0], from) + Spans(divs[1..], mid);
      SlotSpansTile(divs[0], from);
      SpansTile(divs[1..], mid);
      TilesConcat(SlotSpans(divs[0], from), Spans(divs[1..], mid), from, mid, to);
    }
  }

  /** Placing two runs of divisions one after the other places the second
      where the first ends. */
  lemma {:induction false} SpansAppend(a: seq<Division>, b: seq<Division>, from: nat)
    ensures Spans(a + b, from) == Spans(a, from) + Spans(b, from + SumLengths(a))
    decreases |a|
  {
    if |a| == 0 {
      assert a + b == b;
    } else {
      var a', mid := a[1..], from + Length(a[0]);
      var head := SlotSpans(a[0], from);
      HeadTail(a, b);
      SpansAppend(a', b, mid);
      assert mid + SumLengths(a') == from + SumLengths(a);
      calc {
        Spans(a + b, from);
        head + Spans(a' + b, mid);
        head + (Spans(a', mid) + Spans(b, mid + SumLengths(a')));
        { AppendAssoc(head, Spans(a', mid), Spans(b, mid + SumLengths(a'))); }
        (head + Spans(a', mid)) + Spans(b, mid + SumLengths(a'));
        Spans(a, from) + Spans(b, from + SumLengths(a));
      }
    }
  }

  /** The divisions of consecutive bars, one after the other. */
  function Flatten(bars: seq<seq<Division>>): seq<Division>
    decreases |bars|
  {
    if |bars| == 0 then [] else bars[0] + Flatten(bars[1..])
  }

  /** The divisions of a bar followed by those of the later bars. */
  lemma FlattenCons(first: seq<Division>, bars: seq<seq<Division>>)
    ensures Flatten([first] + bars) == first + Flatten(bars)
  {
    assert ([first] + bars)[0] == first && ([first] + bars)[1..] == bars;
  }

  /** The spans of a bar followed by the later bars: the bar's spans, then
      the later bars' spans from where the bar ends. */
  lemma SpansOfBars(first: seq<Division>, bars: seq<seq<Division>>, from: nat, mid: nat)
    requires mid == from + SumLengths(first)
    ensures Spans(Flatten([first] + bars), from) == Spans(first, from) + Spans(Flatten(bars), mid)
  {
    FlattenCons(first, bars);
    SpansAppend(first, Flatten(bars), from);
  }

  /** One draw of midi_generator.py's duration choice: an index into the vocabulary. */
  function Pick(vocab: seq<Division>, draw: nat): Division
    requires |vocab| > 0
  {
    vocab[draw % |vocab|]
  }

  /** midi_generator.py's rejection loop over a finite run of draws: the first draw
      whose division fits is accepted, together with the number of draws used;
      if none of them fits, the loop would still be drawing. */
  function Redraw(vocab: seq<Division>, ticksLeft: nat, draws: seq<nat>): (r: Option<(Division, nat)>)
    requires |vocab| > 0
    ensures r.Some? ==> 1 <= r.value.1 <= |draws|
    ensures r.Some? ==> r.value.0 == Pick(vocab, draws[r.value.1 - 1]) && Length(r.value.0) <= ticksLeft
    ensures r.Some? ==> forall k :: 0 <= k < r.value.1 - 1 ==> Length(Pick(vocab, draws[k])) > ticksLeft
    ensures r.None? <==> forall k :: 0 <= k < |draws| ==> Length(Pick(vocab, draws[k])) > ticksLeft
    decreases |draws|
  {
    if |draws| == 0 then None
    else if Length(Pick(vocab, draws[0])) <= ticksLeft then Some((Pick(vocab, draws[0]), 1))
    else
      match Redraw(vocab, ticksLeft, draws[1..])
      case None => None
      case Some(accepted) => Some((accepted.0, accepted.1 + 1))
  }

  /** Whatever the rejection loop accepts is one of the fitting divisions. */
  lemma RedrawAcceptsOnlyFitting(vocab: seq<Division>, ticksLeft: nat, draws: seq<nat>)
    requires |vocab| > 0 && Redraw(vocab, ticksLeft, draws).Some?
    ensures Redraw(vocab, ticksLeft, draws).value.0 in Fitting(vocab, ticksLeft)
  {
    var n := Redraw(vocab, ticksLeft, draws).value.1;
    var k := draws[n - 1] % |vocab|;
    assert Redraw(vocab, ticksLeft, draws).value.0 == vocab[k];
  }

  /** Every fitting division is accepted by the rejection loop for some draws:
      a single draw of its index. */
  lemma RedrawReachesEveryFit(vocab: seq<Division>, ticksLeft: nat, d: Division)
    requires |vocab| > 0 && d in Fitting(vocab, ticksLeft)
    ensures exists draws: seq<nat> :: |draws| > 0 && Redraw(vocab, ticksLeft, draws) == Some((d, |draws|))
  {
    var i :| 0 <= i < |vocab| && vocab[i] == d;
    SmallModulus(i, |vocab|);
    assert Pick(vocab, i) == d;
    var draws: seq<nat> := [i];
    assert Redraw(vocab, ticksLeft, draws) == Some((d, |draws|));
  }

  lemma SmallModulus(i: nat, n: nat)
    requires i < n
    ensures i % n == i
  {
  }
}

=== FILE: theory.dfy ===
/** Scale and chord theory: key names, the two diatonic scales, the scale
    extended over three octaves, chord types as stacks of scale degrees, and
    the root pitch an instrument plays from. */
module Theory {
  import opened Results
  import opened Notes

  /** Pitch number of middle C, the reference every root is built on. */
  const MiddleC: int := 60

  /** The velocity of every generated note. */
  const GeneratedVelocity: int := 100

  /** The twelve key names, sharp spelling only, in pitch-class order. */
  const KeyNames: seq<string> := ["C", "C#", "D", "D#", "E", "F", "F#", "G", "G#", "A", "A#", "B"]

  /** The key table: a key name's offset in semitones above C, or nothing
      for a name outside the table. */
  function KeyOffset(key: string): (r: Option<nat>)
    ensures r.Some? <==> key in KeyNames
    ensures r.Some? ==> r.value < 12 && KeyNames[r.value] == key
  {
    if key == "C" then Some(0)
    else if key == "C#" then Some(1)
    else if key == "D" then Some(2)
    else if key == "D#" then Some(3)
    else if key == "E" then Some(4)
    else if key == "F" then Some(5)
    else if key == "F#" then Some(6)
    else if key == "G" then Some(7)
    else if key == "G#" then Some(8)
    else if key == "A" then Some(9)
    else if key == "A#" then Some(10)
    else if key == "B" then Some(11)
    else None
  }

  /** Every one of the twelve pitch classes has exactly one name. */
  lemma KeyNamesRoundTrip(offset: nat)
    requires offset < 12
    ensures KeyOffset(KeyNames[offset]) == Some(offset)
  {
  }

  predicate StrictlyIncreasing(s: seq<int>) {
    forall i, j :: 0 <= i < j < |s| ==> s[i] < s[j]
  }

  /** Seven ascending semitone offsets within one octave, starting at the tonic. */
  predicate IsDiatonic(s: seq<int>) {
    |s| == 7 && s[0] == 0 && s[6] < 12 && StrictlyIncreasing(s)
  }

  const MajorScale: seq<int> := [0, 2, 4, 5, 7, 9, 11]
  const MinorScale: seq<int> := [0, 2, 3, 5, 7, 8, 10]

  /** The scale of a modality: major, or natural minor. */
  function BaseScale(isMajor: bool): (s: seq<int>)
    ensures IsDiatonic(s)
    ensures s[2] == (if isMajor then 4 else 3)
  {
    if isMajor then MajorScale else MinorScale
  }

  /** One of the two scales the generator chooses between. */
  predicate IsBaseScale(s: seq<int>) {
    s == MajorScale || s == MinorScale
  }

  lemma BaseScaleDiatonic(s: seq<int>)
    requires IsBaseScale(s)
    ensures IsDiatonic(s)
  {
    if s == MajorScale {
      assert s == BaseScale(true);
    } else {
      assert s == BaseScale(false);
    }
  }

  /** Natural minor is major with its third, sixth and seventh degrees a
      semitone lower and every other degree unchanged. */
  lemma MinorFlattensThirdSixthSeventh(i: nat)
    requires i < 7
    ensures BaseScale(false)[i] == BaseScale(true)[i] - (if i in {2, 5, 6} then 1 else 0)
  {
  }

  function Shift(s: seq<int>, k: int): seq<int> {
    seq(|s|, i requires 0 <= i < |s| => s[i] + k)
  }

  /** The scale followed by itself one and two octaves up. */
  function ExtendedScale(base: seq<int>): (ext: seq<int>)
    ensures |ext| == 3 * |base|
    ensures ext[..|base|] == base
  {
    base + Shift(base, 12) + Shift(base, 24)
  }

  /** A diatonic scale's tones lie within one octave above the tonic. */
  lemma DiatonicBounds(base: seq<int>)
    requires IsDiatonic(base)
    ensures forall k :: 0 <= k < 7 ==> 0 <= base[k] < 12
  {
    forall k | 0 <= k < 7
      ensures 0 <= base[k] < 12
    {
      if k > 0 {
        assert base[0] < base[k];
      }
      if k < 6 {
        assert base[k] < base[6];
      }
    }
  }

  /** The extended-scale entry at index i is scale degree i % 7 lifted by
      i / 7 octaves. */
  lemma ExtendedScaleAt(base: seq<int>, i: nat)
    requires |base| == 7 && i < 21
    ensures ExtendedScale(base)[i] == base[i % 7] + 12 * (i / 7)
  {
    var up1, up2 := Shift(base, 12), Shift(base, 24);
    var ext := base + up1 + up2;
    assert ExtendedScale(base) == ext;
    if i < 7 {
      assert i % 7 == i && i / 7 == 0;
      assert ext[i] == base[i];
    } else if i < 14 {
      assert i % 7 == i - 7 && i / 7 == 1;
      assert ext[i] == up1[i - 7];
    } else {
      assert i % 7 == i - 14 && i / 7 == 2;
      assert ext[i] == up2[i - 14];
    }
  }

  /** Over a diatonic scale the extended scale has 21 strictly ascending
      entries. */
  lemma ExtendedScaleShape(base: seq<int>)
    requires IsDiatonic(base)
    ensures |ExtendedScale(base)| == 21
    ensures StrictlyIncreasing(ExtendedScale(base))
  {
    var ext := ExtendedScale(base);
    forall i, j | 0 <= i < j < 21
      ensures ext[i] < ext[j]
    {
      ExtendedScaleStep(base, i, j);
    }
  }

  lemma ExtendedScaleStep(base: seq<int>, i: nat, j: nat)
    requires IsDiatonic(base) && i < j < 21
    ensures ExtendedScale(base)[i] < ExtendedScale(base)[j]
  {
    ExtendedScaleAt(base, i);
    ExtendedScaleAt(base, j);
    DiatonicBounds(base);
    var a, b := i % 7, j % 7;
    var oi, oj := i / 7, j / 7;
    assert i == 7 * oi + a && j == 7 * oj + b;
    if oi == oj {
      assert a < b;
    } else {
      assert oi < oj;
      assert base[a] + 12 * oi < 12 * (oi + 1) <= 12 * oj <= base[b] + 12 * oj;
    }
  }

  /** Adding whole octaves to a tone within the first octave keeps its
      pitch class. */
  lemma ShiftedClass(d: int, octaves: int)
    requires 0 <= d < 12
    ensures (d + 12 * octaves) % 12 == d
  {
    var m := d + 12 * octaves;
    var q, c := m / 12, m % 12;
    assert m == 12 * q + c && 0 <= c < 12;
    assert 12 * (q - octaves) == d - c;
    assert q - octaves == 0;
  }

  /** The chord-type names generate_note acts on; any other name is
      unrecognised and sounds nothing. */
  datatype ChordType = Single | Triad | Seventh | Ninth | Unrecognised

  /** The chord type a name stands for. */
  function ChordTypeOf(name: string): (c: ChordType)
    ensures c == Single <==> name == "single"
    ensures c == Triad <==> name == "triad"
    ensures c == Seventh <==> name == "seventh"
    ensures c == Ninth <==> name == "ninth"
  {
    if name == "single" then Single
    else if name == "triad" then Triad
    else if name == "seventh" then Seventh
    else if name == "ninth" then Ninth
    else Unrecognised
  }

  /** Every name in a list classified, in order. */
  function ChordTypesOf(names: seq<string>): (r: seq<ChordType>)
    ensures |r| == |names|
    ensures forall i :: 0 <= i < |names| ==> r[i] == ChordTypeOf(names[i])
  {
    if |names| == 0 then [] else [ChordTypeOf(names[0])] + ChordTypesOf(names[1..])
  }

  /** The chord types built by stacking scale degrees: the offsets, in scale
      degrees, of each chord tone above the chosen degree. Single is not one
      of them: it is played straight from the base scale. */
  function ChordIntervals(c: ChordType): (r: Option<seq<nat>>)
    ensures r.Some? <==> c in {Triad, Seventh, Ninth}
    ensures r.Some? ==> forall k :: 0 <= k < |r.value| ==> r.value[k] == 2 * k
  {
    match c
    case Triad => Some([0, 2, 4])
    case Seventh => Some([0, 2, 4, 6])
    case Ninth => Some([0, 2, 4, 6, 8])
    case _ => None
  }

  /** How many notes a chord type sounds, by its musical meaning: a single
      tone, a triad of three, a seventh chord of four, a ninth chord of five;
      an unrecognised name sounds nothing. */
  function ToneCount(c: ChordType): nat {
    match c
    case Single => 1
    case Triad => 3
    case Seventh => 4
    case Ninth => 5
    case Unrecognised => 0
  }

  /** The stacks agree with the tone counts, and every stacked tone of a chord
      on any of the seven degrees stays inside the 21-entry extended scale. */
  lemma ChordIntervalsFit(c: ChordType, degree: nat)
    requires ChordIntervals(c).Some? && degree < 7
    ensures |ChordIntervals(c).value| == ToneCount(c)
    ensures forall k :: 0 <= k < |ChordIntervals(c).value| ==>
      degree + ChordIntervals(c).value[k] <= 14 < 21
  {
  }

  /** build_chord: one note per interval, at the extended-scale entry that
      many degrees above the chosen degree, appended in interval order. */
  function BuildChord(intervals: seq<nat>, degree: nat, ext: seq<int>, root: int, start: nat, end: nat): (r: seq<Event>)
    requires forall k :: 0 <= k < |intervals| ==> degree + intervals[k] < |ext|
    ensures |r| == |intervals|
    ensures forall k :: 0 <= k < |r| ==>
      && r[k].pitch == root + ext[degree + intervals[k]]
      && r[k].start == start && r[k].end == end && r[k].velocity == GeneratedVelocity
  {
    if |intervals| == 0 then []
    else
      [Event(root + ext[degree + intervals[0]], start, end, GeneratedVelocity)]
      + BuildChord(intervals[1..], degree, ext, root, start, end)
  }

  function Pitches(es: seq<Event>): seq<int> {
    seq(|es|, i requires 0 <= i < |es| => es[i].pitch)
  }

  /** The pitch class of a pitch, relative to the key, is a scale tone. */
  predicate InKey(pitch: int, keyOffset: nat, base: seq<int>) {
    (pitch - keyOffset) % 12 in base
  }

  /** The register bounds of one instrument, in octaves above middle C. */
  datatype OctaveRange = OctaveRange(min: int, max: int)

  /** The register of an instrument missing from the table. */
  const DefaultOctaveRange: OctaveRange := OctaveRange(0, 1)

  /** The table lookup with its default. */
  function OctaveRangeFor(ranges: map<string, OctaveRange>, instrument: string): OctaveRange {
    if instrument in ranges then ranges[instrument] else DefaultOctaveRange
  }

  /** The root pitch played in the given octave of the key: it has the key's
      pitch class, and the octave is recovered from it. */
  function RootPitch(octave: int, keyOffset: nat): (r: int)
    requires keyOffset < 12
    ensures r % 12 == keyOffset
    ensures (r - keyOffset - MiddleC) / 12 == octave
  {
    MiddleC + 12 * octave + keyOffset
  }

  /** Over an ascending extended scale, ascending intervals sound ascending
      pitches. */
  lemma BuildChordAscending(intervals: seq<nat>, degree: nat, base: seq<int>, root: int, start: nat, end: nat)
    requires IsDiatonic(base)
    requires forall k :: 0 <= k < |intervals| ==> degree + intervals[k] < 21
    requires forall i, j :: 0 <= i < j < |intervals| ==> intervals[i] < intervals[j]
    ensures StrictlyIncreasing(Pitches(BuildChord(intervals, degree, ExtendedScale(base), root, start, end)))
  {
    var ext := ExtendedScale(base);
    ExtendedScaleShape(base);
    var es := BuildChord(intervals, degree, ext, root, start, end);
    var ps := Pitches(es);
    forall i, j | 0 <= i < j < |ps|
      ensures ps[i] < ps[j]
    {
      assert ps[i] == root + ext[degree + intervals[i]];
      assert ps[j] == root + ext[degree + intervals[j]];
    }
  }

  /** A chord built on a root of the key sounds only pitches of the key. */
  lemma BuildChordInKey(intervals: seq<nat>, degree: nat, base: seq<int>, root: int, keyOffset: nat, start: nat, end: nat)
    requires IsDiatonic(base) && keyOffset < 12 && root % 12 == keyOffset
    requires forall k :: 0 <= k < |intervals| ==> degree + intervals[k] < 21
    ensures forall k :: 0 <= k < |intervals| ==>
      InKey(BuildChord(intervals, degree, ExtendedScale(base), root, start, end)[k].pitch, keyOffset, base)
  {
    var ext := ExtendedScale(base);
    var es := BuildChord(intervals, degree, ext, root, start, end);
    forall k | 0 <= k < |intervals|
      ensures InKey(es[k].pitch, keyOffset, base)
    {
      PitchInKey(root, keyOffset, base, degree + intervals[k]);
    }
  }

  /** A root of the key plus any extended-scale entry is in the key. */
  lemma PitchInKey(root: int, keyOffset: nat, base: seq<int>, index: nat)
    requires IsDiatonic(base) && keyOffset < 12 && root % 12 == keyOffset && index < 21
    ensures InKey(root + ExtendedScale(base)[index], keyOffset, base)
  {
    var j, o := index % 7, index / 7;
    ExtendedScaleAt(base, index);
    DiatonicBounds(base);
    var q := root / 12;
    assert root == 12 * q + keyOffset;
    assert root + ExtendedScale(base)[index] - keyOffset == base[j] + 12 * (q + o);
    ShiftedClass(base[j], q + o);
  }

  /** The seventh chord on the first degree of C major from middle C is
      C, E, G, B. */
  lemma SeventhOnCMajorExample()
    ensures Pitches(BuildChord(ChordIntervals(ChordTypeOf("seventh")).value, 0, ExtendedScale(BaseScale(true)), 60, 0, 12))
      == [60, 64, 67, 71]
  {
  }
}
